=== FILE: README.md ===
# Status area icon box and plugin routing

A Dafny model of the status area of the Hildon status menu. The model has two parts.

The first part is `HDStatusAreaBox`. This is the container that keeps the plugin icons in a list ordered by priority. It lays out the first eight shown icons in a two-row grid, filling the rows alternately. It then marks every child after the eighth shown one as not drawn; hidden children before that point are left as they are, and when fewer than eight children are shown nothing is marked.

The second part is the routing logic of `HDStatusArea`. It decides, for every status plugin the plugin manager reports, which image shows the plugin's icon:

- the dedicated signal image;
- the dedicated battery image;
- or a fresh image in the icon box.

Modules, one per file:

- `StatusAreaBox` (`box.dfy`): the child records and the container operations add, remove and forall. It also has the guarded container call (`Apply`), and the invariants any sequence of calls keeps.
- `StatusAreaBoxLayout` (`layout.dfy`): the two layout passes, size request and size allocation. Each is written as a walk over the list with the C loop's variables as accumulators. Beside them sit reference definitions:
  - the shown widgets (`VisibleWidgets`);
  - the laid-out ones (`Placed`, the first eight shown);
  - the sum of a row's widths (`RowWidth`);
  - the grid slot of the k-th laid-out child (`Slot`).

  Lemmas connect the walks to these definitions.
- `StatusArea` (`status_area.dfy`): the panel as a record-typed state machine with one function per signal handler. The state holds:
  - the configured signal and battery plugin names;
  - the image association of every plugin (`routes`);
  - the icon notifications the panel listens to;
  - the references it holds;
  - the icon box contents.

  `Deliver` and `Run` dispatch events through the signal connections made at construction. `Valid` is the invariant every reachable panel keeps.

Widgets and plugins are identified by natural numbers, which stand for their addresses. A widget's size request is its `reqWidth`. The border width and the allocated rectangle are parameters of the layout functions.

Two behaviours of the code to keep in mind:

- Allocation leaves hidden children that come before the eighth shown child untouched. It does not mark them as not drawn; only the records after the eighth shown child are.
- Sorted insertion is deterministic. The comparator never answers "equal", and every child gets priority `G_MAXUINT`. So a new child always goes in front of the list, and the icon box shows the most recently added tray image first.

## Model

| member | source | states |
|---|---|---|
| StatusAreaBox.CmpPriority | src/hd-status-area-box.c:48-57 | The comparator answers 1 exactly when the first priority is strictly greater, and -1 otherwise; it never answers "equal". |
| StatusAreaBox.InsertSorted | src/hd-status-area-box.c:76-78 | Sorted insertion puts the new record immediately before the first record whose priority is at least its own, or at the end when there is none. |
| StatusAreaBox.InsertionIndex | src/hd-status-area-box.c:48-57 | The insertion point: every earlier record has a smaller priority, and the record at the point, if any, has one at least as large. |
| StatusAreaBox.InsertSortedKeepsOrder | src/hd-status-area-box.c:76-78 | Insertion keeps the list ordered by non-decreasing priority. |
| StatusAreaBox.InsertDefaultGoesFirst | src/hd-status-area-box.c:74-78 | When every record has priority G_MAXUINT, a new G_MAXUINT record lands at the front of the list. |
| StatusAreaBox.Add | src/hd-status-area-box.c:66-80 | The widget must not already be a child of the box. The result holds the old records plus one new record with priority G_MAXUINT, and the widget set grows by exactly that widget. No widget becomes held twice and the order stays sorted. In a list of default-priority records the new record is at the front. |
| StatusAreaBox.IndexOf | src/hd-status-area-box.c:97-101 | The search finds the first record holding the widget. |
| StatusAreaBox.Remove | src/hd-status-area-box.c:92-118 | The widget's parent must be the box. Exactly one record leaves, and a resize is queued exactly when the removed widget was shown. |
| StatusAreaBox.RemoveKeepsOthers | src/hd-status-area-box.c:97-110 | Removal takes exactly the found record out: the multiset of records loses that one record. Without repeats, the widget set loses exactly that widget. Order and default priorities are kept. |
| StatusAreaBox.RemoveUndoesAdd | src/hd-status-area-box.c:68-118 | Removing a widget just added gives the list back unchanged, and queues a resize exactly when the widget was shown. |
| StatusAreaBox.Apply | src/hd-status-area-box.c:66-92 | A container call whose parent check fails changes nothing: adding a widget that is already a child, or removing one that is not. An accepted call is exactly the container's add or remove. Every call keeps distinct widgets, sortedness and default priorities. |
| StatusAreaBox.ReplayKeepsInvariants | src/hd-status-area-box.c:74 | After any sequence of add and remove calls, every record still has priority G_MAXUINT, the list is sorted and no widget is held twice. |
| StatusAreaBox.SurvivorsMembers | src/hd-status-area-box.c:134-142 | The records left after a forall are exactly those whose widget the callback did not destroy. |
| StatusAreaBox.ForAll | src/hd-status-area-box.c:134-142 | The callback is handed every child once, in list order. The next link is taken before the callback runs, so the callback destroying the current child does not disturb the walk, and exactly the destroyed children are gone afterwards. |
| StatusAreaBoxLayout.Take | src/hd-status-area-box.c:191 | The first-n prefix of a list: it has exactly n elements when the list is longer, and it is the whole list otherwise. |
| StatusAreaBoxLayout.Placed | src/hd-status-area-box.c:191-198 | The laid-out children are a prefix of the shown children: all of them when fewer than eight are shown, otherwise exactly the first eight. |
| StatusAreaBoxLayout.RequestLoop | src/hd-status-area-box.c:239-254 | The request loop only ever adds to its row accumulators. |
| StatusAreaBoxLayout.RequestLoopSaturated | src/hd-status-area-box.c:250-253 | Once eight shown children have been counted, the loop only counts: the row sums no longer change. |
| StatusAreaBoxLayout.RequestLoopSums | src/hd-status-area-box.c:239-254 | From any point of the request loop, the two row accumulators end at the row sums of the first eight shown children. |
| StatusAreaBoxLayout.SizeRequest | src/hd-status-area-box.c:239-259 | The width is the larger of the two row sums over the first eight shown children, where row r takes those of rank r mod 2, plus twice the border. The height is 2·16 + 8 plus twice the border. |
| StatusAreaBoxLayout.SizeRequestIgnoresHidden | src/hd-status-area-box.c:244-245 | A hidden child does not change the size request. |
| StatusAreaBoxLayout.SizeRequestIgnoresOverflow | src/hd-status-area-box.c:250-253 | Once eight children are shown, no later child changes the size request. |
| StatusAreaBoxLayout.HideRest | src/hd-status-area-box.c:215-221 | The second loop marks every remaining record as not drawn, and each record keeps its widget's other fields and its priority. |
| StatusAreaBoxLayout.Reflag | src/hd-status-area-box.c:191-221 | The per-record flag rule changes only the drawn flag. Identity, priority, shown flag and requested width are kept. |
| StatusAreaBoxLayout.PlaceOne | src/hd-status-area-box.c:196-212 | One pass of the placing loop: a hidden child is skipped with nothing changed. A shown child is made drawn and gets one placement of its own width and the item height. It is placed at its row's running offset and height, its row being the count mod 2, and the count goes up by one. Its width is added to its own row's offset, and the other row's offset is kept. |
| StatusAreaBoxLayout.PlaceOneShown | src/hd-status-area-box.c:200-209 | The placement a shown child gets is the grid slot of its rank, and the loop's accumulators stay the counts and row sums of the children placed so far. |
| StatusAreaBoxLayout.PlaceLoopOffsets | src/hd-status-area-box.c:191-213 | From any point of the placing loop, it makes one placement per remaining laid-out child, and its row offsets end at the row sums of the laid-out children. |
| StatusAreaBoxLayout.PlaceLoopSlot | src/hd-status-area-box.c:200-208 | Every placement the loop makes is the grid slot of that child's rank. |
| StatusAreaBoxLayout.PlaceLoopFlag | src/hd-status-area-box.c:191-221 | Each record ends with the flag given by whether fewer than eight shown children precede it. |
| StatusAreaBoxLayout.PlaceLoop | src/hd-status-area-box.c:191-221 | The two allocation loops together return one record per input record, in order. Their placements and flags are stated by PlaceLoopOffsets, PlaceLoopSlot and PlaceLoopFlag. |
| StatusAreaBoxLayout.SizeAllocate | src/hd-status-area-box.c:169-222 | The allocation returns one record per child. Its placements and flags are stated by AllocatePlacements and AllocateFlags. |
| StatusAreaBoxLayout.AllocatePlacements | src/hd-status-area-box.c:188-208 | There is one placement per laid-out child, at most eight. The k-th has x = area.x + border + the widths of the earlier children in row k mod 2, and y = area.y + border + (k mod 2)·24. Its width is the child's request and its height is 16. |
| StatusAreaBoxLayout.AllocateFlags | src/hd-status-area-box.c:191-221 | Record j ends as Reflag of itself, reached exactly when fewer than eight shown records precede it. |
| StatusAreaBoxLayout.AllocateFlagRules | src/hd-status-area-box.c:196-221 | A reached shown child is drawn, a reached hidden child is untouched, and every record after the eighth laid-out child is not drawn. |
| StatusAreaBoxLayout.AllocateDrawnArePlaced | src/hd-status-area-box.c:202-209 | Every shown child reached before the eighth gets the placement at its rank among the shown children, and the allocation makes it drawn. |
| StatusAreaBoxLayout.VisibleRankGrows | src/hd-status-area-box.c:191-209 | A shown child's rank (the number of shown children before it) is smaller than the rank of every child after it, so each shown child takes its own value of `visible_children`. |
| StatusAreaBoxLayout.AllocateDrawnDistinct | src/hd-status-area-box.c:191-209 | Two different children the allocation makes drawn get two different placements, among at most eight, so at most eight children are made drawn. |
| StatusAreaBoxLayout.AllocateFewHidesNothing | src/hd-status-area-box.c:191-221 | With fewer than eight shown children, no record is marked not drawn. |
| StatusAreaBoxLayout.AllocateMatchesRequest | src/hd-status-area-box.c:202-206 | The allocation's final row offsets equal the size request's row sums. |
| StatusAreaBoxLayout.RowsContiguous | src/hd-status-area-box.c:202-206 | In a row, each child starts where the previous child of that row ends, at the same y, so children of a row do not overlap. |
| StatusAreaBoxLayout.AllocationFitsRequestWidth | src/hd-status-area-box.c:202-206 | Every laid-out child lies horizontally inside the requested width, inset by the border. |
| StatusAreaBoxLayout.AllocationFitsRequestHeight | src/hd-status-area-box.c:188-203 | Every laid-out child lies vertically inside the requested height, inset by the border, and the two rows are separated by the spacing: a top-row child ends `SPACING` pixels above the bottom-row child placed after it. |
| StatusArea.AllocId | src/hd-status-area.c:280 | A new image is a widget no child of the box is. In a reachable panel it is the allocator's next identity. |
| StatusArea.DestroyImage | src/hd-status-area.c:281-282 | Destroying a tray image removes exactly that widget from the box, and keeps the box free of repeats and at default priority. |
| StatusArea.Detach | src/hd-status-area.c:305 | Clearing a plugin's association removes its route. A tray image is destroyed and leaves the icon box; a dedicated image is only forgotten. Nothing else changes. |
| StatusArea.Attach | src/hd-status-area.c:268-281 | Setting a plugin's association replaces any earlier one and runs its destroy-notify. Adding an already-routed plugin again destroys its earlier tray image, and only the plugin's route and the icon box change. |
| StatusArea.ShowIcon | src/hd-status-area.c:235-245 | Setting an icon on a tray image changes only that image: it is shown exactly when the icon is set and requests the icon's width. Every other child, and every child's identity, priority and drawn flag, stays as it was. |
| StatusArea.ShowIconKeepsIds | src/hd-status-area.c:235 | Setting an icon changes no widget's identity or priority. |
| StatusArea.ShowIconFound | src/hd-status-area.c:235-245 | The image found for the widget is shown exactly when the icon is set, and requests the icon's width. |
| StatusArea.IconChanged | src/hd-status-area.c:221-246 | The handler changes only the images, and keeps the number of icon box children. |
| StatusArea.IconChangedShows | src/hd-status-area.c:226-245 | After the handler, the plugin's image holds the plugin's current icon and is shown exactly when the icon is set. Every other image keeps its state. |
| StatusArea.IconChangedIdempotent | src/hd-status-area.c:286-287 | Running the handler twice equals running it once, so a notification connected more than once acts like one connection. |
| StatusArea.Strcmp | src/hd-status-area.c:263-265 | The string comparison answers zero exactly when the two strings are equal. |
| StatusArea.Matches | src/hd-status-area.c:262-271 | A configured name matches a plugin's file name exactly when the name is set and equal to the file name, so an unset name never matches. |
| StatusArea.AttachNew | src/hd-status-area.c:263-284 | The plugin gets a route. No other plugin's route changes, and only the routes, the icon box and the allocator change. |
| StatusArea.PluginAdded | src/hd-status-area.c:248-289 | A non-status object leaves the panel unchanged. A status plugin ends with a route and a subscription, one more reference, and no other route changed. |
| StatusArea.PluginAddedRoutes | src/hd-status-area.c:263-284 | A set signal name equal to the file name routes to Signal, whatever the battery name is. Otherwise a matching battery name routes to Battery. An unset name matches nothing. A plugin matching neither gets a new image, put at the front of the icon box and showing the plugin's icon. A dedicated route leaves the icon box unchanged. |
| StatusArea.PluginAddedShows | src/hd-status-area.c:286-288 | After the handler, the plugin's image is shown exactly when the plugin provides an icon. |
| StatusArea.PluginAddedKeepsOtherImages | src/hd-status-area.c:263-288 | A dedicated image that the plugin is not routed to keeps its state. |
| StatusArea.PluginRemoved | src/hd-status-area.c:291-307 | A non-status object leaves the panel unchanged. A status plugin loses its route, its subscription and one reference. Its tray image, if it had one, is destroyed, and the icon box is otherwise unchanged. The dedicated images, the configured names, the connections and the id counter keep their values. |
| StatusArea.PluginRemovedUndoesAdded | src/hd-status-area.c:260-306 | Removing a status plugin just added restores the routes, the subscriptions, the references and the icon box, since its tray image is destroyed. Only the dedicated image it was routed to keeps its last icon, and the allocator has moved on. |
| StatusArea.ConfigurationLoaded | src/hd-status-area.c:309-327 | Both names are replaced by the key file's values for X-Status-Area / X-Signal-Plugin and X-Battery-Plugin, or unset when the group or key is missing. Nothing else changes. |
| StatusArea.GetString | src/hd-status-area.c:319-326 | A value is found exactly when the group and the key are present, and it is the stored value. |
| StatusArea.ConfigurationDecidesRoute | src/hd-status-area.c:263-326 | After a configuration naming the plugin's file as signal plugin, the plugin is routed to Signal when added. After one without the group, every status plugin gets a tray image. |
| StatusArea.Construct | src/hd-status-area.c:131-137 | A new panel satisfies the invariant. Both dedicated images are empty and shown, and no names, routes, subscriptions, references or icon box children exist yet. |
| StatusArea.ConstructConnects | src/hd-status-area.c:341-352 | The manager's three signals are connected exactly when a manager is given. A panel built without one stays as built, whatever events come. |
| StatusArea.Deliver | src/hd-status-area.c:342-352 | A panel built without a plugin manager ignores every event, and no event changes whether the panel is connected. |
| StatusArea.UnconnectedStaysPut | src/hd-status-area.c:342-352 | With no plugin manager, no sequence of events changes the panel. |
| StatusArea.IconNotifyShows | src/hd-status-area.c:221-246 | In a reachable panel, an icon notification the panel listens to leaves the plugin's image shown exactly when the plugin has an icon. |
| StatusArea.PluginAddedKeepsValid | src/hd-status-area.c:248-289 | The added handler keeps the invariant. Under it, the icon box holds exactly the plugins' tray images, each once and at default priority, and the panel listens to exactly the plugins with a route and holds a reference on each of them. |
| StatusArea.PluginRemovedKeepsValid | src/hd-status-area.c:291-307 | The removed handler keeps the invariant. |
| StatusArea.IconChangedKeepsValid | src/hd-status-area.c:221-246 | The icon handler keeps the invariant. |
| StatusArea.RunKeepsValid | src/hd-status-area.c:248-327 | Every panel reached by any sequence of events satisfies the invariant. |

## Left out

- Widget tree construction and packing, the event-box click handler and the status menu: these are toolkit assembly. Only the two dedicated images and the icon box appear, with their initial shown state.
- Realize, X11 window type and decorations, and the GObject type, class, init, dispose and finalize boilerplate.
- The child-property getters and setters, which do nothing, and `child_type`.
- The chain-up to the parent class's size allocation. `gtk_widget_size_allocate` on a child is recorded as a placement.
- The effect of `gtk_widget_queue_resize`: the model returns only whether one was queued.
- Pixbuf contents and pixbuf reference counting. A pixbuf is represented only by its width, and a GtkImage is taken to request exactly its pixbuf's width, with zero padding.
- Signal-handler machinery, beyond which handlers are connected. `g_warning` and `g_return_if_fail` messages are not modelled.
- `g_key_file_get_string` escape processing: key file values are taken as already unescaped strings.
- The alignment parameters and padding of the panel's init.
- Width accumulators and coordinates use unbounded `nat` and `int`. The requested width (src/hd-status-area-box.c:257) and the child's x coordinate (src/hd-status-area-box.c:202) are `gint`, so icons adding up to 2^31 pixels or more would overflow them. The `guint` row sums and the signed/unsigned mixing in the x and y sums are not modelled either.
- StatusAreaBox.ForAll: the callback is a pure decision per widget, given as the set of widgets it destroys. A callback that removes other children, or adds children, is not modelled. The requirement that no widget is held twice holds for every box reached through add and remove (`ReplayKeepsInvariants`).
- StatusArea.Run: an icon notification is connected once per add. `g_signal_connect` on a plugin added twice connects two handlers, and the model keeps one. `IconChangedIdempotent` shows the two behave the same.
- StatusArea.PluginRemoved: removing a status plugin that was never added unrefs a reference the panel never took. The model subtracts from the multiset, which saturates at zero.
- StatusArea.IconChanged: a notification for a plugin without an image makes the toolkit refuse the calls on a NULL image. The model treats this as no change.
- StatusAreaBox.Add / StatusAreaBox.Apply: the box is the only parent modelled. The parent checks at src/hd-status-area-box.c:68 and :92 become "not a child of this box" and "a child of this box". A widget whose parent is another container, which the C code refuses to add, cannot be written in the model.
- StatusArea.Strcmp: strings are sequences of characters with no terminator inside them, and characters compare by code point. C compares bytes and stops at the first NUL.
- Priorities other than G_MAXUINT: nothing in the source sets one. Add is still modelled for the general sorted insertion.

=== FILE: box.dfy ===
/** The icon box of the status area: a container that keeps its children in a
    list ordered by priority. This module holds the child list and the
    container operations add, remove and forall; the two layout passes live
    in StatusAreaBoxLayout.
 */
module StatusAreaBox {

  /** Style-guide constants of the box. */
  const ITEM_HEIGHT: nat := 16
  const SPACING: nat := 8
  const MAX_VISIBLE_CHILDREN: nat := 8

  /** G_MAXUINT, the largest value of a 32-bit guint. */
  const G_MAXUINT: nat := 0xFFFF_FFFF

  /** A guint priority. */
  type Priority = p: int | 0 <= p <= 0xFFFF_FFFF

  /** A widget, by its identity (its address in the program). */
  type WidgetId = nat

  /** What the box reads of a child widget: whether it is shown, whether it
      is drawn as part of its parent, and the width of its size request. */
  datatype Widget = Widget(id: WidgetId, visible: bool, childVisible: bool, reqWidth: nat)

  /** One record of the box's child list. */
  datatype Child = Child(widget: Widget, priority: Priority)

  /** The widgets held by the box: exactly the widgets whose parent is the box. */
  function Ids(children: seq<Child>): set<WidgetId>
  {
    set c | c in children :: c.widget.id
  }

  /** A widget has at most one parent, so it is held at most once. */
  ghost predicate DistinctIds(children: seq<Child>)
  {
    forall i, j :: 0 <= i < j < |children| ==> children[i].widget.id != children[j].widget.id
  }

  ghost predicate Sorted(children: seq<Child>)
  {
    forall i, j :: 0 <= i < j < |children| ==> children[i].priority <= children[j].priority
  }

  /** Every child carries the priority the box gives at add time. */
  ghost predicate AllDefaultPriority(children: seq<Child>)
  {
    forall i :: 0 <= i < |children| ==> children[i].priority == G_MAXUINT
  }

  /** The comparator handed to the sorted insertion. It never answers "equal". */
  function CmpPriority(a: Child, b: Child): (r: int)
    ensures r == 1 || r == -1
    ensures r == 1 <==> a.priority > b.priority
  {
    if a.priority > b.priority then 1 else -1
  }

  /** The first position whose priority is at least p, or the end of the list. */
  function InsertionIndex(children: seq<Child>, p: Priority): (k: nat)
    ensures k <= |children|
    ensures forall j :: 0 <= j < k ==> children[j].priority < p
    ensures k < |children| ==> children[k].priority >= p
  {
    if |children| == 0 || children[0].priority >= p then 0
    else 1 + InsertionIndex(children[1..], p)
  }

  /** Sorted insertion into a linked list: walk forward while the comparator
      answers "greater", then link the new record in front of the element
      reached, or append it when the walk fell off the end. */
  function InsertSorted(children: seq<Child>, c: Child): (r: seq<Child>)
    ensures var k := InsertionIndex(children, c.priority);
      r == children[..k] + [c] + children[k..]
  {
    if |children| == 0 then [c]
    else if CmpPriority(c, children[0]) > 0 then
      var rest := InsertSorted(children[1..], c);
      var k := InsertionIndex(children[1..], c.priority);
      assert InsertionIndex(children, c.priority) == 1 + k;
      assert children[..1 + k] == [children[0]] + children[1..][..k];
      assert children[1 + k..] == children[1..][k..];
      [children[0]] + rest
    else
      [c] + children
  }

  lemma IdsConcat(a: seq<Child>, b: seq<Child>)
    ensures Ids(a + b) == Ids(a) + Ids(b)
  {
  }

  lemma IdsSplice(front: seq<Child>, c: Child, back: seq<Child>)
    ensures Ids(front + [c] + back) == Ids(front + back) + {c.widget.id}
  {
    IdsConcat(front, back);
    IdsConcat(front + [c], back);
    IdsConcat(front, [c]);
    assert Ids([c]) == {c.widget.id} by { assert [c][0] == c; }
  }

  /** Position i of a list with c spliced in after front, read in the list without c. */
  lemma SpliceIndex(front: seq<Child>, c: Child, back: seq<Child>, i: nat)
    requires i < |front| + 1 + |back| && i != |front|
    ensures (front + [c] + back)[i] == (front + back)[if i < |front| then i else i - 1]
  {
  }

  lemma MultisetSplice(front: seq<Child>, c: Child, back: seq<Child>)
    ensures multiset(front + [c] + back) == multiset(front + back) + multiset{c}
  {
  }

  /** Splicing out a record keeps the other widgets distinct, and the spliced
      widget appears nowhere else. */
  lemma DistinctUnsplice(front: seq<Child>, c: Child, back: seq<Child>)
    requires DistinctIds(front + [c] + back)
    ensures DistinctIds(front + back) && c.widget.id !in Ids(front + back)
  {
    var t := front + back;
    var m := |front|;
    forall i, j | 0 <= i < j < |t|
      ensures t[i].widget.id != t[j].widget.id
    {
      var i' := if i < m then i else i + 1;
      var j' := if j < m then j else j + 1;
      SpliceIndex(front, c, back, i');
      SpliceIndex(front, c, back, j');
    }
    var s := front + [c] + back;
    assert s[m] == c;
    forall x | x in t
      ensures x.widget.id != c.widget.id
    {
      var i :| 0 <= i < |t| && t[i] == x;
      var i' := if i < m then i else i + 1;
      SpliceIndex(front, c, back, i');
      if i' < m {
        assert s[i'].widget.id != s[m].widget.id;
      } else {
        assert s[m].widget.id != s[i'].widget.id;
      }
    }
  }

  /** Splicing in a widget held nowhere else keeps the widgets distinct. */
  lemma DistinctSplice(front: seq<Child>, c: Child, back: seq<Child>)
    requires DistinctIds(front + back) && c.widget.id !in Ids(front + back)
    ensures DistinctIds(front + [c] + back)
  {
    var s, t := front + [c] + back, front + back;
    var m := |front|;
    assert s[m] == c;
    forall i, j | 0 <= i < j < |s|
      ensures s[i].widget.id != s[j].widget.id
    {
      if i == m {
        SpliceIndex(front, c, back, j);
        assert t[j - 1] in t;
      } else if j == m {
        SpliceIndex(front, c, back, i);
        assert t[i] in t;
      } else {
        SpliceIndex(front, c, back, i);
        SpliceIndex(front, c, back, j);
      }
    }
  }

  /** Splicing out a record keeps the priorities of the others, in order. */
  lemma OrderUnsplice(front: seq<Child>, c: Child, back: seq<Child>)
    ensures Sorted(front + [c] + back) ==> Sorted(front + back)
    ensures AllDefaultPriority(front + [c] + back) ==> AllDefaultPriority(front + back)
  {
    var s, t := front + [c] + back, front + back;
    var m := |front|;
    if Sorted(s) {
      forall i, j | 0 <= i < j < |t|
        ensures t[i].priority <= t[j].priority
      {
        var i' := if i < m then i else i + 1;
        var j' := if j < m then j else j + 1;
        SpliceIndex(front, c, back, i');
        SpliceIndex(front, c, back, j');
      }
    }
    if AllDefaultPriority(s) {
      forall i | 0 <= i < |t|
        ensures t[i].priority == G_MAXUINT
      {
        var i' := if i < m then i else i + 1;
        SpliceIndex(front, c, back, i');
      }
    }
  }

  /** Splicing a record in between lower and higher priorities keeps order. */
  lemma SortedSplice(front: seq<Child>, c: Child, back: seq<Child>)
    requires Sorted(front + back)
    requires forall i :: 0 <= i < |front| ==> front[i].priority <= c.priority
    requires |back| > 0 ==> c.priority <= back[0].priority
    ensures Sorted(front + [c] + back)
  {
    var s, t := front + [c] + back, front + back;
    var m := |front|;
    assert s[m] == c;
    forall i, j | 0 <= i < j < |s|
      ensures s[i].priority <= s[j].priority
    {
      if i == m {
        SpliceIndex(front, c, back, j);
        assert t[m] == back[0];
      } else if j == m {
        SpliceIndex(front, c, back, i);
      } else {
        SpliceIndex(front, c, back, i);
        SpliceIndex(front, c, back, j);
      }
    }
  }

  /** Insertion keeps the list ordered by priority. */
  lemma InsertSortedKeepsOrder(children: seq<Child>, c: Child)
    requires Sorted(children)
    ensures Sorted(InsertSorted(children, c))
  {
    var k := InsertionIndex(children, c.priority);
    var front, back := children[..k], children[k..];
    assert children == front + back;
    forall i | 0 <= i < |front|
      ensures front[i].priority <= c.priority
    {
      assert front[i] == children[i];
    }
    if |back| > 0 {
      assert back[0] == children[k];
    }
    SortedSplice(front, c, back);
  }

  /** A record with the largest priority goes in front of a list whose
      records all have that priority. */
  lemma InsertDefaultGoesFirst(children: seq<Child>, c: Child)
    requires c.priority == G_MAXUINT
    requires AllDefaultPriority(children)
    ensures InsertSorted(children, c) == [c] + children
    ensures AllDefaultPriority([c] + children)
  {
    if |children| > 0 {
      assert children[0].priority == G_MAXUINT;
    }
    assert InsertionIndex(children, c.priority) == 0;
    var r := [c] + children;
    forall i | 0 <= i < |r|
      ensures r[i].priority == G_MAXUINT
    {
      if i > 0 {
        assert r[i] == children[i - 1];
      }
    }
  }

  /** What inserting a widget the list does not hold does to the list. */
  lemma InsertFresh(children: seq<Child>, c: Child)
    requires c.widget.id !in Ids(children)
    ensures var r := InsertSorted(children, c);
      && multiset(r) == multiset(children) + multiset{c}
      && Ids(r) == Ids(children) + {c.widget.id}
      && (DistinctIds(children) ==> DistinctIds(r))
      && (Sorted(children) ==> Sorted(r))
      && (c.priority == G_MAXUINT && AllDefaultPriority(children) ==>
            AllDefaultPriority(r) && r == [c] + children)
  {
    var k := InsertionIndex(children, c.priority);
    var front, back := children[..k], children[k..];
    assert children == front + back;
    MultisetSplice(front, c, back);
    IdsSplice(front, c, back);
    if DistinctIds(children) {
      DistinctSplice(front, c, back);
    }
    if Sorted(children) {
      InsertSortedKeepsOrder(children, c);
    }
    if c.priority == G_MAXUINT && AllDefaultPriority(children) {
      InsertDefaultGoesFirst(children, c);
    }
  }

  /** Adding a child: the widget must not have a parent yet; it is given the
      priority G_MAXUINT and inserted in sorted position. */
  function Add(children: seq<Child>, w: Widget): (r: seq<Child>)
    requires w.id !in Ids(children)
    ensures multiset(r) == multiset(children) + multiset{Child(w, G_MAXUINT)}
    ensures Ids(r) == Ids(children) + {w.id}
    ensures DistinctIds(children) ==> DistinctIds(r)
    ensures Sorted(children) ==> Sorted(r)
    ensures AllDefaultPriority(children) ==> AllDefaultPriority(r) && r == [Child(w, G_MAXUINT)] + children
  {
    InsertFresh(children, Child(w, G_MAXUINT));
    InsertSorted(children, Child(w, G_MAXUINT))
  }

  /** The first position holding the widget. */
  function IndexOf(children: seq<Child>, id: WidgetId): (k: nat)
    requires id in Ids(children)
    ensures k < |children| && children[k].widget.id == id
    ensures forall j :: 0 <= j < k ==> children[j].widget.id != id
  {
    if children[0].widget.id == id then 0
    else
      assert id in Ids(children[1..]) by {
        assert children == [children[0]] + children[1..];
        IdsConcat([children[0]], children[1..]);
      }
      1 + IndexOf(children[1..], id)
  }

  /** The outcome of removing a child: the new list, and whether a resize of
      the box was queued. */
  datatype Removal = Removal(children: seq<Child>, resizeQueued: bool)

  /** Removing a child: the widget's parent must be the box. The list is
      searched from the front, the first record of the widget is unlinked,
      and a resize is queued when the widget was shown. */
  function Remove(children: seq<Child>, id: WidgetId): (r: Removal)
    requires id in Ids(children)
    ensures |r.children| == |children| - 1
    ensures r.resizeQueued == children[IndexOf(children, id)].widget.visible
  {
    var k := IndexOf(children, id);
    Removal(children[..k] + children[k + 1..], children[k].widget.visible)
  }

  /** Removing takes exactly the one record out, keeps the others in order,
      and keeps the invariants of the list. */
  lemma RemoveKeepsOthers(children: seq<Child>, id: WidgetId)
    requires id in Ids(children)
    ensures var k := IndexOf(children, id);
      multiset(Remove(children, id).children) == multiset(children) - multiset{children[k]}
    ensures DistinctIds(children) ==>
      && DistinctIds(Remove(children, id).children)
      && Ids(Remove(children, id).children) == Ids(children) - {id}
    ensures Sorted(children) ==> Sorted(Remove(children, id).children)
    ensures AllDefaultPriority(children) ==> AllDefaultPriority(Remove(children, id).children)
  {
    var k := IndexOf(children, id);
    var c := children[k];
    var front, back := children[..k], children[k + 1..];
    assert children == front + [c] + back;
    assert Remove(children, id).children == front + back;
    MultisetSplice(front, c, back);
    OrderUnsplice(front, c, back);
    if DistinctIds(children) {
      DistinctUnsplice(front, c, back);
      IdsSplice(front, c, back);
    }
  }

  /** Removing a record whose widget appears nowhere before it. */
  lemma RemoveAfterPrefix(front: seq<Child>, c: Child, back: seq<Child>)
    requires c.widget.id !in Ids(front)
    ensures c.widget.id in Ids(front + [c] + back)
    ensures Remove(front + [c] + back, c.widget.id) == Removal(front + back, c.widget.visible)
  {
    var s := front + [c] + back;
    var m := |front|;
    assert s[m] == c;
    assert s[m] in s;
    forall j | 0 <= j < m
      ensures s[j].widget.id != c.widget.id
    {
      assert s[j] == front[j];
      assert front[j] in front;
    }
    var k := IndexOf(s, c.widget.id);
    assert k == m;
    assert s[..m] == front;
    assert s[m + 1..] == back;
  }

  /** Removing a child just added gives back the list as it was, and queues a
      resize exactly when the child was shown. */
  lemma {:induction false} RemoveUndoesAdd(children: seq<Child>, w: Widget)
    requires w.id !in Ids(children)
    ensures Remove(Add(children, w), w.id) == Removal(children, w.visible)
  {
    var c := Child(w, G_MAXUINT);
    var k := InsertionIndex(children, c.priority);
    var front, back := children[..k], children[k..];
    assert children == front + back;
    assert Add(children, w) == front + [c] + back;
    IdsConcat(front, back);
    RemoveAfterPrefix(front, c, back);
  }

  /** A container call as the toolkit makes it. */
  datatype ContainerCall = AddChild(w: Widget) | RemoveChild(id: WidgetId)

  /** A container call with its guard: a call whose widget fails the parent
      check is refused with a warning and changes nothing. */
  function Apply(children: seq<Child>, call: ContainerCall): (r: seq<Child>)
    ensures call.AddChild? && call.w.id in Ids(children) ==> r == children
    ensures call.RemoveChild? && call.id !in Ids(children) ==> r == children
    ensures call.AddChild? && call.w.id !in Ids(children) ==> r == Add(children, call.w)
    ensures call.RemoveChild? && call.id in Ids(children) ==> r == Remove(children, call.id).children
    ensures DistinctIds(children) ==> DistinctIds(r)
    ensures Sorted(children) ==> Sorted(r)
    ensures AllDefaultPriority(children) ==> AllDefaultPriority(r)
  {
    match call
    case AddChild(w) =>
      if w.id in Ids(children) then children else Add(children, w)
    case RemoveChild(id) =>
      if id !in Ids(children) then children
      else
        RemoveKeepsOthers(children, id);
        Remove(children, id).children
  }

  function Replay(children: seq<Child>, calls: seq<ContainerCall>): seq<Child>
    decreases |calls|
  {
    if |calls| == 0 then children else Replay(Apply(children, calls[0]), calls[1..])
  }

  /** Nothing ever gives a child any priority but G_MAXUINT, so after any
      sequence of adds and removes every child still has it, the list is
      still ordered, and no widget is held twice. */
  lemma {:induction false} ReplayKeepsInvariants(children: seq<Child>, calls: seq<ContainerCall>)
    requires DistinctIds(children) && AllDefaultPriority(children)
    ensures var r := Replay(children, calls);
      DistinctIds(r) && AllDefaultPriority(r) && Sorted(r)
    decreases |calls|
  {
    if |calls| > 0 {
      ReplayKeepsInvariants(Apply(children, calls[0]), calls[1..]);
    }
  }

  /** The records whose widget the callback leaves alive, in order. The
      callback's effect is given as the set of widgets it destroys when it is
      handed them. */
  function Survivors(children: seq<Child>, destroyed: set<WidgetId>): seq<Child>
  {
    if |children| == 0 then []
    else (if children[0].widget.id in destroyed then [] else [children[0]]) + Survivors(children[1..], destroyed)
  }

  /** Exactly the records of widgets not destroyed survive. */
  lemma {:induction false} SurvivorsMembers(children: seq<Child>, destroyed: set<WidgetId>)
    ensures forall c :: c in Survivors(children, destroyed) <==> c in children && c.widget.id !in destroyed
  {
    if |children| > 0 {
      SurvivorsMembers(children[1..], destroyed);
      assert children == [children[0]] + children[1..];
    }
  }

  /** One step of the walk over the unvisited records `next`, with `kept` the
      survivors so far: if the callback destroys the widget, that widget's
      record is the one unlinked, and the list stays free of repeats. */
  lemma ForAllStep(kept: seq<Child>, next: seq<Child>, destroyed: set<WidgetId>)
    requires |next| > 0 && DistinctIds(kept + next)
    ensures var info := next[0];
      && (info.widget.id in destroyed ==>
            && info.widget.id in Ids(kept + next)
            && Remove(kept + next, info.widget.id).children == kept + next[1..]
            && DistinctIds(kept + next[1..]))
      && kept + next == kept + [info] + next[1..]
      && kept + Survivors(next, destroyed) ==
           (if info.widget.id in destroyed then kept else kept + [info]) + Survivors(next[1..], destroyed)
  {
    var info, rest := next[0], next[1..];
    assert next == [info] + rest;
    assert kept + next == kept + [info] + rest;
    if info.widget.id in destroyed {
      DistinctUnsplice(kept, info, rest);
      IdsConcat(kept, rest);
      RemoveAfterPrefix(kept, info, rest);
    }
  }

  /** Visiting every child: the link to the next record is taken before the
      callback runs, so a callback that destroys (and thereby removes) the
      child it is handed does not disturb the walk. Every child is visited
      once, in list order, and exactly the children the callback destroyed
      are gone afterwards. */
  method ForAll(children: seq<Child>, destroyed: set<WidgetId>)
    returns (visited: seq<WidgetId>, remaining: seq<Child>)
    requires DistinctIds(children)
    ensures |visited| == |children|
    ensures forall i :: 0 <= i < |children| ==> visited[i] == children[i].widget.id
    ensures remaining == Survivors(children, destroyed)
  {
    var next := children;
    ghost var kept: seq<Child> := [];
    visited := [];
    remaining := children;
    while |next| > 0
      invariant |visited| + |next| == |children|
      invariant next == children[|visited|..]
      invariant forall i :: 0 <= i < |visited| ==> visited[i] == children[i].widget.id
      invariant remaining == kept + next && DistinctIds(remaining)
      invariant kept + Survivors(next, destroyed) == Survivors(children, destroyed)
    {
      var info := next[0];
      ForAllStep(kept, next, destroyed);
      visited := visited + [info.widget.id];
      if info.widget.id in destroyed {
        remaining := Remove(remaining, info.widget.id).children;
      } else {
        kept := kept + [info];
      }
      next := next[1..];
    }
  }
}

=== FILE: layout.dfy ===
/** The two layout passes of the status-area icon box: the size request and
    the size allocation. Both walk the child list front to back; the first
    eight shown children are laid out in a two-row grid, the rows filled
    alternately (first, third, fifth, seventh child in the top row, the
    others in the bottom row).

    Each walk is a recursive function whose extra parameters are the loop
    variables of the program (the count of shown children seen and the two
    row accumulators). Their meaning is given against reference
    definitions: VisibleWidgets, Placed and RowWidth.
 */
module StatusAreaBoxLayout {
  import opened StatusAreaBox

  /** The shown widgets of the list, in list order. */
  function VisibleWidgets(cs: seq<Child>): seq<Widget>
  {
    if |cs| == 0 then []
    else (if cs[0].widget.visible then [cs[0].widget] else []) + VisibleWidgets(cs[1..])
  }

  /** The first n elements of ws, or all of them when there are fewer. */
  function Take(ws: seq<Widget>, n: int): (r: seq<Widget>)
    ensures |r| <= |ws| && (n >= 0 ==> |r| <= n)
    ensures r == ws[..|r|]
    ensures |ws| <= n ==> r == ws
    ensures 0 <= n < |ws| ==> |r| == n
  {
    if n <= 0 then [] else if |ws| <= n then ws else ws[..n]
  }

  /** The widgets the box lays out: the first eight shown ones. */
  function Placed(cs: seq<Child>): (r: seq<Widget>)
    ensures |r| <= MAX_VISIBLE_CHILDREN
    ensures |r| == if |VisibleWidgets(cs)| < MAX_VISIBLE_CHILDREN then |VisibleWidgets(cs)| else MAX_VISIBLE_CHILDREN
    ensures r == VisibleWidgets(cs)[..|r|]
  {
    Take(VisibleWidgets(cs), MAX_VISIBLE_CHILDREN)
  }

  /** The shown widgets of cs a walk still lays out when it has already met
      count shown children. */
  function Pending(cs: seq<Child>, count: nat): seq<Widget>
  {
    Take(VisibleWidgets(cs), MAX_VISIBLE_CHILDREN - count)
  }

  /** The summed request width of the widgets in one row of ws: row 0 holds
      the widgets at even positions, row 1 those at odd positions. */
  function RowWidth(ws: seq<Widget>, row: nat): nat
    requires row < 2
  {
    if |ws| == 0 then 0
    else (if row == 0 then ws[0].reqWidth else 0) + RowWidth(ws[1..], 1 - row)
  }

  function Max(a: int, b: int): int
  {
    if a >= b then a else b
  }

  /* ---------- facts about the reference definitions ---------- */

  /** Unfolding the shown widgets at the front of the list. */
  lemma VisibleCons(cs: seq<Child>)
    requires |cs| > 0
    ensures cs[0].widget.visible ==> VisibleWidgets(cs) == [cs[0].widget] + VisibleWidgets(cs[1..])
    ensures !cs[0].widget.visible ==> VisibleWidgets(cs) == VisibleWidgets(cs[1..])
  {
    if !cs[0].widget.visible {
      assert [] + VisibleWidgets(cs[1..]) == VisibleWidgets(cs[1..]);
    }
  }

  lemma TakeCons(w: Widget, ws: seq<Widget>, n: int)
    requires n >= 1
    ensures Take([w] + ws, n) == [w] + Take(ws, n - 1)
  {
    if n - 1 > 0 && |ws| > n - 1 {
      assert ([w] + ws)[..n] == [w] + ws[..n - 1];
    }
  }

  lemma {:induction false} VisibleConcat(a: seq<Child>, b: seq<Child>)
    ensures VisibleWidgets(a + b) == VisibleWidgets(a) + VisibleWidgets(b)
  {
    if |a| == 0 {
      assert a + b == b;
    } else {
      assert (a + b)[1..] == a[1..] + b;
      VisibleCons(a + b);
      VisibleCons(a);
      VisibleConcat(a[1..], b);
    }
  }

  /** The shown widgets among the first j + 1 records: those among the first
      j, then record j's widget when it is shown. */
  lemma VisiblePrefixStep(cs: seq<Child>, j: nat)
    requires j < |cs|
    ensures VisibleWidgets(cs[..j + 1]) ==
      VisibleWidgets(cs[..j]) + (if cs[j].widget.visible then [cs[j].widget] else [])
  {
    assert cs[..j + 1] == cs[..j] + [cs[j]];
    VisibleConcat(cs[..j], [cs[j]]);
    assert [cs[j]][1..] == [];
  }

  /** Appending a widget adds its width to the row its position falls in. */
  lemma {:induction false} RowWidthSnoc(ws: seq<Widget>, w: Widget, row: nat)
    requires row < 2
    ensures RowWidth(ws + [w], row) == RowWidth(ws, row) + (if |ws| % 2 == row then w.reqWidth else 0)
  {
    if |ws| == 0 {
      assert ws + [w] == [w];
      assert [w][1..] == [];
    } else {
      assert (ws + [w])[1..] == ws[1..] + [w];
      RowWidthSnoc(ws[1..], w, 1 - row);
      assert (|ws| - 1) % 2 == 1 - |ws| % 2;
    }
  }

  /** A row of a prefix is no wider than the row of the whole. */
  lemma {:induction false} RowWidthPrefix(ws: seq<Widget>, k: nat, row: nat)
    requires k <= |ws| && row < 2
    ensures RowWidth(ws[..k], row) <= RowWidth(ws, row)
    decreases |ws| - k
  {
    if k < |ws| {
      assert ws[..k + 1] == ws[..k] + [ws[k]];
      RowWidthSnoc(ws[..k], ws[k], row);
      RowWidthPrefix(ws, k + 1, row);
    } else {
      assert ws[..k] == ws;
    }
  }

  /** How the pending widgets change as the walk passes the first record. */
  lemma PendingCons(cs: seq<Child>, count: nat)
    requires |cs| > 0
    ensures !cs[0].widget.visible ==> Pending(cs, count) == Pending(cs[1..], count)
    ensures cs[0].widget.visible && count < MAX_VISIBLE_CHILDREN ==>
      Pending(cs, count) == [cs[0].widget] + Pending(cs[1..], count + 1)
    ensures count >= MAX_VISIBLE_CHILDREN ==> Pending(cs, count) == []
  {
    VisibleCons(cs);
    if cs[0].widget.visible && count < MAX_VISIBLE_CHILDREN {
      TakeCons(cs[0].widget, VisibleWidgets(cs[1..]), MAX_VISIBLE_CHILDREN - count);
    }
  }

  /** Moving the first pending widget to the widgets done. */
  lemma MoveFirst(done: seq<Widget>, w: Widget, rest: seq<Widget>)
    ensures (done + [w]) + rest == done + ([w] + rest)
  {
  }

  /** The shown widgets among the first j records, counted from the second
      record on. */
  lemma VisiblePrefixCons(cs: seq<Child>, j: nat)
    requires 0 < j <= |cs|
    ensures |VisibleWidgets(cs[..j])| ==
      (if cs[0].widget.visible then 1 else 0) + |VisibleWidgets(cs[1..][..j - 1])|
  {
    assert cs[..j][1..] == cs[1..][..j - 1];
    VisibleCons(cs[..j]);
  }

  /* ---------- size request ---------- */

  /** The loop of the size request. count is the number of shown children
      met so far (it keeps counting past eight); while it is below eight, a
      shown child's width is added to row count mod 2. The result is the two
      row sums. */
  function RequestLoop(cs: seq<Child>, count: nat, width0: nat, width1: nat): (r: (nat, nat))
    ensures r.0 >= width0 && r.1 >= width1
  {
    if |cs| == 0 then (width0, width1)
    else if !cs[0].widget.visible then RequestLoop(cs[1..], count, width0, width1)
    else if count < MAX_VISIBLE_CHILDREN then
      var w := cs[0].widget;
      if count % 2 == 0 then RequestLoop(cs[1..], count + 1, width0 + w.reqWidth, width1)
      else RequestLoop(cs[1..], count + 1, width0, width1 + w.reqWidth)
    else RequestLoop(cs[1..], count + 1, width0, width1)
  }

  /** Past the eighth shown child the loop only counts. */
  lemma {:induction false} RequestLoopSaturated(cs: seq<Child>, count: nat, width0: nat, width1: nat)
    requires count >= MAX_VISIBLE_CHILDREN
    ensures RequestLoop(cs, count, width0, width1) == (width0, width1)
  {
    if |cs| > 0 {
      if cs[0].widget.visible {
        RequestLoopSaturated(cs[1..], count + 1, width0, width1);
      } else {
        RequestLoopSaturated(cs[1..], count, width0, width1);
      }
    }
  }

  /** The step of the request loop over a shown record, with done the
      widgets laid out before it: the record's width goes to the row its
      position falls in. */
  lemma RequestLoopShownStep(cs: seq<Child>, done: seq<Widget>)
    requires |cs| > 0 && cs[0].widget.visible && |done| < MAX_VISIBLE_CHILDREN
    ensures var done' := done + [cs[0].widget];
      RequestLoop(cs, |done|, RowWidth(done, 0), RowWidth(done, 1)) ==
        RequestLoop(cs[1..], |done'|, RowWidth(done', 0), RowWidth(done', 1))
  {
    var w := cs[0].widget;
    var done' := done + [w];
    RowWidthSnoc(done, w, 0);
    RowWidthSnoc(done, w, 1);
    if |done| % 2 == 0 {
      assert RowWidth(done', 0) == RowWidth(done, 0) + w.reqWidth && RowWidth(done', 1) == RowWidth(done, 1);
    } else {
      assert RowWidth(done', 0) == RowWidth(done, 0) && RowWidth(done', 1) == RowWidth(done, 1) + w.reqWidth;
    }
  }

  /** Started with the row sums of the widgets laid out so far (done), the
      loop ends with the row sums of those followed by the pending ones. */
  lemma {:induction false} RequestLoopSums(cs: seq<Child>, done: seq<Widget>)
    ensures var all := done + Pending(cs, |done|);
      RequestLoop(cs, |done|, RowWidth(done, 0), RowWidth(done, 1)) == (RowWidth(all, 0), RowWidth(all, 1))
  {
    var count := |done|;
    if |cs| == 0 {
      assert done + Pending(cs, count) == done;
    } else {
      PendingCons(cs, count);
      if count >= MAX_VISIBLE_CHILDREN {
        RequestLoopSaturated(cs, count, RowWidth(done, 0), RowWidth(done, 1));
        assert done + Pending(cs, count) == done;
      } else if !cs[0].widget.visible {
        RequestLoopSums(cs[1..], done);
      } else {
        var done' := done + [cs[0].widget];
        RequestLoopShownStep(cs, done);
        MoveFirst(done, cs[0].widget, Pending(cs[1..], |done'|));
        RequestLoopSums(cs[1..], done');
      }
    }
  }

  datatype Requisition = Requisition(width: nat, height: nat)

  /** The size the box asks for: as wide as the wider row of the laid-out
      children, two item heights and one spacing high, plus the border on
      every side. */
  function SizeRequest(cs: seq<Child>, border: nat): (r: Requisition)
    ensures r.width == Max(RowWidth(Placed(cs), 0), RowWidth(Placed(cs), 1)) + 2 * border
    ensures r.height == 2 * ITEM_HEIGHT + SPACING + 2 * border
  {
    var widths := RequestLoop(cs, 0, 0, 0);
    RequestLoopSums(cs, []);
    assert [] + Pending(cs, 0) == Placed(cs);
    Requisition(Max(widths.0, widths.1) + 2 * border, 2 * ITEM_HEIGHT + SPACING + 2 * border)
  }

  /** A hidden child does not change the size request. */
  lemma SizeRequestIgnoresHidden(front: seq<Child>, c: Child, back: seq<Child>, border: nat)
    requires !c.widget.visible
    ensures SizeRequest(front + [c] + back, border) == SizeRequest(front + back, border)
  {
    VisibleConcat(front + [c], back);
    VisibleConcat(front, [c]);
    VisibleConcat(front, back);
    VisibleCons([c]);
    assert [c][1..] == [];
    assert VisibleWidgets(front + [c] + back) == VisibleWidgets(front + back);
  }

  /** Once eight children are shown, no further child changes the size
      request. */
  lemma SizeRequestIgnoresOverflow(cs: seq<Child>, more: seq<Child>, border: nat)
    requires |VisibleWidgets(cs)| >= MAX_VISIBLE_CHILDREN
    ensures SizeRequest(cs + more, border) == SizeRequest(cs, border)
  {
    VisibleConcat(cs, more);
    var v := VisibleWidgets(cs);
    assert (v + VisibleWidgets(more))[..MAX_VISIBLE_CHILDREN] == v[..MAX_VISIBLE_CHILDREN];
  }

  /* ---------- size allocation ---------- */

  /** A rectangle in the coordinates of the box's parent window. */
  datatype Rect = Rect(x: int, y: int, width: int, height: int)

  /** The area handed to one child. */
  datatype Placement = Placement(id: WidgetId, area: Rect)

  /** The outcome of an allocation: the child list with the new child-visible
      flags, and the area given to each laid-out child, in list order. */
  datatype Allocation = Allocation(children: seq<Child>, placements: seq<Placement>)

  /** The state at the end of the placing loop: the records it produced,
      the placements it made, and its two running row offsets. */
  datatype Walk = Walk(children: seq<Child>, placements: seq<Placement>, x0: nat, x1: nat)

  function Shown(c: Child): Child
  {
    c.(widget := c.widget.(childVisible := true))
  }

  function Unshown(c: Child): Child
  {
    c.(widget := c.widget.(childVisible := false))
  }

  /** The second loop: every record the first one did not reach is no longer
      drawn. */
  function HideRest(cs: seq<Child>): (r: seq<Child>)
    ensures |r| == |cs|
    ensures forall j :: 0 <= j < |cs| ==>
      && !r[j].widget.childVisible
      && r[j].widget.(childVisible := cs[j].widget.childVisible) == cs[j].widget
      && r[j].priority == cs[j].priority
  {
    seq(|cs|, j requires 0 <= j < |cs| => Unshown(cs[j]))
  }

  /** The grid slot of the k-th laid-out widget of placed: row k mod 2, to
      the right of the earlier widgets of that row, as wide as the widget
      asked and one item high; the rows are one item height plus the
      spacing apart. */
  function Slot(placed: seq<Widget>, k: nat, border: nat, area: Rect): Rect
    requires k < |placed|
  {
    Rect(area.x + border + RowWidth(placed[..k], k % 2),
         area.y + border + (k % 2) * (ITEM_HEIGHT + SPACING),
         placed[k].reqWidth, ITEM_HEIGHT)
  }

  /** The per-record rule of the allocation: a record the first loop reaches
      is drawn when its widget is shown and left alone when it is hidden;
      a record it does not reach is no longer drawn. */
  function Reflag(c: Child, reached: bool): (r: Child)
    ensures r.priority == c.priority && r.widget.id == c.widget.id
    ensures r.widget.visible == c.widget.visible && r.widget.reqWidth == c.widget.reqWidth
  {
    if !reached then Unshown(c) else if c.widget.visible then Shown(c) else c
  }

  /** What the first loop of the allocation does with one record, and its
      loop variables afterwards. */
  datatype Step = Step(child: Child, placed: seq<Placement>, count: nat, x0: nat, x1: nat)

  /** One pass of the first loop of the allocation. A hidden record is
      skipped. A shown one gets its requested width and the item height, at
      its row's running offset (row count mod 2) and at its row's height; it
      is drawn, and its width is added to its row's offset. */
  function PlaceOne(c: Child, count: nat, x0: nat, x1: nat, border: nat, area: Rect): (r: Step)
    ensures r.child == Reflag(c, true)
    ensures !c.widget.visible ==> r.placed == [] && r.count == count && r.x0 == x0 && r.x1 == x1
    ensures c.widget.visible ==>
      && r.count == count + 1
      && (count % 2 == 0 ==> r.x0 == x0 + c.widget.reqWidth && r.x1 == x1)
      && (count % 2 == 1 ==> r.x0 == x0 && r.x1 == x1 + c.widget.reqWidth)
      && |r.placed| == 1 && r.placed[0].id == c.widget.id
      && r.placed[0].area.x == area.x + border + (if count % 2 == 0 then x0 else x1)
      && r.placed[0].area.y == area.y + border + (if count % 2 == 0 then 0 else ITEM_HEIGHT + SPACING)
      && r.placed[0].area.width == c.widget.reqWidth && r.placed[0].area.height == ITEM_HEIGHT
  {
    if !c.widget.visible then Step(c, [], count, x0, x1)
    else
      var w := c.widget;
      var rect := Rect(area.x + border + (if count % 2 == 0 then x0 else x1),
                       area.y + border + (count % 2) * (ITEM_HEIGHT + SPACING),
                       w.reqWidth, ITEM_HEIGHT);
      Step(Shown(c), [Placement(w.id, rect)], count + 1,
           if count % 2 == 0 then x0 + w.reqWidth else x0,
           if count % 2 == 0 then x1 else x1 + w.reqWidth)
  }

  /** The first loop of the allocation. It runs while records remain and
      fewer than eight shown children have been placed; count and x0/x1 are
      its loop variables. When eight are placed, the second loop takes the
      records left. */
  function PlaceLoop(cs: seq<Child>, count: nat, x0: nat, x1: nat, border: nat, area: Rect): (r: Walk)
    ensures |r.children| == |cs|
  {
    if |cs| == 0 then Walk([], [], x0, x1)
    else if count >= MAX_VISIBLE_CHILDREN then Walk(HideRest(cs), [], x0, x1)
    else
      var step := PlaceOne(cs[0], count, x0, x1, border, area);
      var r := PlaceLoop(cs[1..], step.count, step.x0, step.x1, border, area);
      Walk([step.child] + r.children, step.placed + r.placements, r.x0, r.x1)
  }

  /** Allocating the box's area: the children get their areas and their
      child-visible flags. */
  function SizeAllocate(cs: seq<Child>, border: nat, area: Rect): (r: Allocation)
    ensures |r.children| == |cs|
  {
    var walk := PlaceLoop(cs, 0, 0, 0, border, area);
    Allocation(walk.children, walk.placements)
  }

  /* ---------- what the placing loop computes ---------- */

  /** The loop variables of the placing loop after the widgets done have
      been laid out. */
  ghost predicate LoopState(done: seq<Widget>, count: nat, x0: nat, x1: nat)
  {
    count == |done| && x0 == RowWidth(done, 0) && x1 == RowWidth(done, 1)
  }

  /** Placing a shown record after the widgets done: it gets the next grid
      slot, and the loop variables move on to the widgets done followed by
      this one. */
  lemma PlaceOneShown(c: Child, done: seq<Widget>, count: nat, x0: nat, x1: nat, border: nat, area: Rect)
    requires c.widget.visible && LoopState(done, count, x0, x1)
    ensures var step := PlaceOne(c, count, x0, x1, border, area);
      && LoopState(done + [c.widget], step.count, step.x0, step.x1)
      && step.placed == [Placement(c.widget.id, Slot(done + [c.widget], count, border, area))]
  {
    var w := c.widget;
    RowWidthSnoc(done, w, 0);
    RowWidthSnoc(done, w, 1);
    assert (done + [w])[..count] == done;
  }

  /** One step of the placing loop, before the eighth shown child. */
  lemma PlaceLoopUnfold(cs: seq<Child>, count: nat, x0: nat, x1: nat, border: nat, area: Rect)
    requires |cs| > 0 && count < MAX_VISIBLE_CHILDREN
    ensures var step := PlaceOne(cs[0], count, x0, x1, border, area);
      var r := PlaceLoop(cs, count, x0, x1, border, area);
      var r' := PlaceLoop(cs[1..], step.count, step.x0, step.x1, border, area);
      && r.children == [step.child] + r'.children
      && r.placements == step.placed + r'.placements
      && r.x0 == r'.x0 && r.x1 == r'.x1
  {
  }

  /** Started after the widgets done, the loop makes one placement per
      pending widget and ends with the row sums of all of them. */
  lemma {:induction false} PlaceLoopOffsets(cs: seq<Child>, done: seq<Widget>, count: nat, x0: nat, x1: nat, border: nat, area: Rect)
    requires LoopState(done, count, x0, x1)
    ensures var r := PlaceLoop(cs, count, x0, x1, border, area);
      var all := done + Pending(cs, count);
      |r.placements| == |Pending(cs, count)| && r.x0 == RowWidth(all, 0) && r.x1 == RowWidth(all, 1)
  {
    if |cs| == 0 {
      assert done + Pending(cs, count) == done;
    } else {
      PendingCons(cs, count);
      if count >= MAX_VISIBLE_CHILDREN {
        assert done + Pending(cs, count) == done;
      } else {
        var c := cs[0];
        var step := PlaceOne(c, count, x0, x1, border, area);
        PlaceLoopUnfold(cs, count, x0, x1, border, area);
        if !c.widget.visible {
          PlaceLoopOffsets(cs[1..], done, count, x0, x1, border, area);
        } else {
          PlaceOneShown(c, done, count, x0, x1, border, area);
          MoveFirst(done, c.widget, Pending(cs[1..], count + 1));
          PlaceLoopOffsets(cs[1..], done + [c.widget], step.count, step.x0, step.x1, border, area);
        }
      }
    }
  }

  /** The i-th placement of the loop started after the widgets done is the
      i-th pending widget, in the grid slot of its position among all
      laid-out widgets. */
  ghost predicate SlotPlaced(cs: seq<Child>, done: seq<Widget>, count: nat, x0: nat, x1: nat,
                             border: nat, area: Rect, i: nat)
  {
    var all := done + Pending(cs, count);
    var r := PlaceLoop(cs, count, x0, x1, border, area);
    && i < |r.placements|
    && count + i < |all|
    && r.placements[i] == Placement(all[count + i].id, Slot(all, count + i, border, area))
  }

  /** A hidden first record changes neither the placements nor the pending
      widgets. */
  lemma SlotPlacedHidden(cs: seq<Child>, done: seq<Widget>, count: nat, x0: nat, x1: nat,
                         border: nat, area: Rect, i: nat)
    requires |cs| > 0 && !cs[0].widget.visible && count < MAX_VISIBLE_CHILDREN
    requires SlotPlaced(cs[1..], done, count, x0, x1, border, area, i)
    ensures SlotPlaced(cs, done, count, x0, x1, border, area, i)
  {
    PlaceLoopUnfold(cs, count, x0, x1, border, area);
    PendingCons(cs, count);
  }

  /** A shown first record takes the next slot itself. */
  lemma SlotPlacedFirst(cs: seq<Child>, done: seq<Widget>, count: nat, x0: nat, x1: nat,
                        border: nat, area: Rect)
    requires |cs| > 0 && cs[0].widget.visible && count < MAX_VISIBLE_CHILDREN
    requires LoopState(done, count, x0, x1)
    ensures SlotPlaced(cs, done, count, x0, x1, border, area, 0)
  {
    var c := cs[0];
    var done' := done + [c.widget];
    var all := done + Pending(cs, count);
    PlaceLoopUnfold(cs, count, x0, x1, border, area);
    PlaceOneShown(c, done, count, x0, x1, border, area);
    PendingCons(cs, count);
    MoveFirst(done, c.widget, Pending(cs[1..], count + 1));
    assert all == done' + Pending(cs[1..], count + 1);
    assert all[..count + 1] == done';
    SlotPrefix(all, count, count + 1, border, area);
  }

  /** After a shown first record, the later placements are those of the rest
      of the walk, one position on. */
  lemma SlotPlacedLater(cs: seq<Child>, done: seq<Widget>, count: nat, x0: nat, x1: nat,
                        border: nat, area: Rect, i: nat)
    requires |cs| > 0 && cs[0].widget.visible && count < MAX_VISIBLE_CHILDREN && i > 0
    requires LoopState(done, count, x0, x1)
    requires var step := PlaceOne(cs[0], count, x0, x1, border, area);
      SlotPlaced(cs[1..], done + [cs[0].widget], step.count, step.x0, step.x1, border, area, i - 1)
    ensures SlotPlaced(cs, done, count, x0, x1, border, area, i)
  {
    var c := cs[0];
    PlaceLoopUnfold(cs, count, x0, x1, border, area);
    PlaceOneShown(c, done, count, x0, x1, border, area);
    PendingCons(cs, count);
    MoveFirst(done, c.widget, Pending(cs[1..], count + 1));
  }

  /** Every placement of the loop started after the widgets done is the
      pending widget of its position, in that position's grid slot. */
  lemma {:induction false} PlaceLoopSlot(cs: seq<Child>, done: seq<Widget>, count: nat, x0: nat, x1: nat,
                                         border: nat, area: Rect, i: nat)
    requires LoopState(done, count, x0, x1)
    requires i < |PlaceLoop(cs, count, x0, x1, border, area).placements|
    ensures SlotPlaced(cs, done, count, x0, x1, border, area, i)
  {
    var c := cs[0];
    var step := PlaceOne(c, count, x0, x1, border, area);
    PlaceLoopUnfold(cs, count, x0, x1, border, area);
    if !c.widget.visible {
      PlaceLoopSlot(cs[1..], done, count, x0, x1, border, area, i);
      SlotPlacedHidden(cs, done, count, x0, x1, border, area, i);
    } else if i == 0 {
      SlotPlacedFirst(cs, done, count, x0, x1, border, area);
    } else {
      PlaceOneShown(c, done, count, x0, x1, border, area);
      PlaceLoopSlot(cs[1..], done + [c.widget], step.count, step.x0, step.x1, border, area, i - 1);
      SlotPlacedLater(cs, done, count, x0, x1, border, area, i);
    }
  }

  /** A slot depends only on the widgets up to its own. */
  lemma SlotPrefix(ws: seq<Widget>, k: nat, n: nat, border: nat, area: Rect)
    requires k < n <= |ws|
    ensures Slot(ws[..n], k, border, area) == Slot(ws, k, border, area)
  {
    assert ws[..n][..k] == ws[..k];
  }

  /** Every record comes out of the loop by the per-record rule, reached
      exactly when fewer than eight shown children precede it. */
  lemma {:induction false} PlaceLoopFlag(cs: seq<Child>, count: nat, x0: nat, x1: nat, border: nat, area: Rect, j: nat)
    requires j < |cs|
    ensures PlaceLoop(cs, count, x0, x1, border, area).children[j] ==
      Reflag(cs[j], count + |VisibleWidgets(cs[..j])| < MAX_VISIBLE_CHILDREN)
  {
    if count < MAX_VISIBLE_CHILDREN {
      var step := PlaceOne(cs[0], count, x0, x1, border, area);
      PlaceLoopUnfold(cs, count, x0, x1, border, area);
      if j == 0 {
        assert cs[..0] == [];
      } else {
        VisiblePrefixCons(cs, j);
        PlaceLoopFlag(cs[1..], step.count, step.x0, step.x1, border, area, j - 1);
      }
    }
  }

  /* ---------- properties of the allocation ---------- */

  /** One placement per laid-out child; the k-th (k below eight) is its
      widget, in grid slot k: at the box's origin plus the border, right of
      the earlier children of row k mod 2, in that row's height band, as
      wide as it asked and one item high. */
  lemma AllocatePlacements(cs: seq<Child>, border: nat, area: Rect)
    ensures var r := SizeAllocate(cs, border, area);
      var placed := Placed(cs);
      && |r.placements| == |placed| <= MAX_VISIBLE_CHILDREN
      && forall k :: 0 <= k < |placed| ==>
           r.placements[k] == Placement(placed[k].id, Slot(placed, k, border, area))
  {
    PlaceLoopOffsets(cs, [], 0, 0, 0, border, area);
    assert [] + Pending(cs, 0) == Placed(cs);
    forall k | 0 <= k < |Placed(cs)|
      ensures SizeAllocate(cs, border, area).placements[k] == Placement(Placed(cs)[k].id, Slot(Placed(cs), k, border, area))
    {
      PlaceLoopSlot(cs, [], 0, 0, 0, border, area, k);
      assert SlotPlaced(cs, [], 0, 0, 0, border, area, k);
    }
  }

  /** The flags the allocation leaves: record j is reached when fewer than
      eight shown children precede it. */
  lemma AllocateFlags(cs: seq<Child>, border: nat, area: Rect)
    ensures var r := SizeAllocate(cs, border, area);
      forall j :: 0 <= j < |cs| ==>
        r.children[j] == Reflag(cs[j], |VisibleWidgets(cs[..j])| < MAX_VISIBLE_CHILDREN)
  {
    forall j | 0 <= j < |cs|
      ensures SizeAllocate(cs, border, area).children[j] ==
        Reflag(cs[j], |VisibleWidgets(cs[..j])| < MAX_VISIBLE_CHILDREN)
    {
      PlaceLoopFlag(cs, 0, 0, 0, border, area, j);
    }
  }

  /** The flag rules spelt out: a reached shown child is drawn; a reached
      hidden record is left untouched; every record after the eighth
      laid-out child is no longer drawn. */
  lemma AllocateFlagRules(cs: seq<Child>, border: nat, area: Rect)
    ensures var r := SizeAllocate(cs, border, area);
      && (forall j :: 0 <= j < |cs| && |VisibleWidgets(cs[..j])| < MAX_VISIBLE_CHILDREN && cs[j].widget.visible ==>
            r.children[j].widget.childVisible)
      && (forall j :: 0 <= j < |cs| && |VisibleWidgets(cs[..j])| < MAX_VISIBLE_CHILDREN && !cs[j].widget.visible ==>
            r.children[j] == cs[j])
      && (forall j :: 0 <= j < |cs| && |VisibleWidgets(cs[..j])| >= MAX_VISIBLE_CHILDREN ==>
            !r.children[j].widget.childVisible)
  {
    AllocateFlags(cs, border, area);
  }

  /** A drawn child is the laid-out child of its rank: the one placement
      that carries its widget. */
  lemma AllocateDrawnArePlaced(cs: seq<Child>, border: nat, area: Rect, j: nat)
    requires j < |cs| && cs[j].widget.visible && |VisibleWidgets(cs[..j])| < MAX_VISIBLE_CHILDREN
    ensures var r := SizeAllocate(cs, border, area);
      var n := |VisibleWidgets(cs[..j])|;
      && n < |r.placements| && r.placements[n].id == cs[j].widget.id
      && j < |r.children| && r.children[j].widget.childVisible
  {
    var n := |VisibleWidgets(cs[..j])|;
    AllocateFlagRules(cs, border, area);
    AllocatePlacements(cs, border, area);
    VisiblePrefixStep(cs, j);
    assert cs == cs[..j + 1] + cs[j + 1..];
    VisibleConcat(cs[..j + 1], cs[j + 1..]);
    assert VisibleWidgets(cs)[n] == cs[j].widget;
  }

  /** A shown record ranks below every record after it: its own widget is
      counted among those before any later record. */
  lemma VisibleRankGrows(cs: seq<Child>, j1: nat, j2: nat)
    requires j1 < j2 <= |cs| && cs[j1].widget.visible
    ensures |VisibleWidgets(cs[..j1])| < |VisibleWidgets(cs[..j2])|
  {
    assert cs[..j2] == cs[..j1] + cs[j1..j2];
    VisibleConcat(cs[..j1], cs[j1..j2]);
    VisibleCons(cs[j1..j2]);
  }

  /** Two different records the allocation makes drawn get two different
      placements; as there are at most eight placements, at most eight
      records are made drawn. */
  lemma AllocateDrawnDistinct(cs: seq<Child>, border: nat, area: Rect, j1: nat, j2: nat)
    requires j1 < j2 < |cs|
    requires cs[j1].widget.visible && |VisibleWidgets(cs[..j1])| < MAX_VISIBLE_CHILDREN
    requires cs[j2].widget.visible && |VisibleWidgets(cs[..j2])| < MAX_VISIBLE_CHILDREN
    ensures var r := SizeAllocate(cs, border, area);
      var n1, n2 := |VisibleWidgets(cs[..j1])|, |VisibleWidgets(cs[..j2])|;
      && n1 < n2 < |r.placements| <= MAX_VISIBLE_CHILDREN
      && r.placements[n1].id == cs[j1].widget.id
      && r.placements[n2].id == cs[j2].widget.id
  {
    VisibleRankGrows(cs, j1, j2);
    AllocateDrawnArePlaced(cs, border, area, j1);
    AllocateDrawnArePlaced(cs, border, area, j2);
    AllocatePlacements(cs, border, area);
  }

  /** With fewer than eight shown children the allocation hides nothing:
      every record ends drawn exactly when it is shown or already was. */
  lemma AllocateFewHidesNothing(cs: seq<Child>, border: nat, area: Rect)
    requires |VisibleWidgets(cs)| < MAX_VISIBLE_CHILDREN
    ensures var r := SizeAllocate(cs, border, area);
      forall j :: 0 <= j < |cs| ==>
        r.children[j].widget.childVisible == (cs[j].widget.visible || cs[j].widget.childVisible)
  {
    AllocateFlags(cs, border, area);
    forall j | 0 <= j < |cs|
      ensures |VisibleWidgets(cs[..j])| < MAX_VISIBLE_CHILDREN
    {
      assert cs == cs[..j] + cs[j..];
      VisibleConcat(cs[..j], cs[j..]);
    }
  }

  /** The allocation's running row offsets end where the size request's row
      sums do: both loops count the same children into the same rows. */
  lemma AllocateMatchesRequest(cs: seq<Child>, border: nat, area: Rect)
    ensures var walk := PlaceLoop(cs, 0, 0, 0, border, area);
      && (walk.x0, walk.x1) == RequestLoop(cs, 0, 0, 0)
      && walk.x0 == RowWidth(Placed(cs), 0) && walk.x1 == RowWidth(Placed(cs), 1)
  {
    PlaceLoopOffsets(cs, [], 0, 0, 0, border, area);
    RequestLoopSums(cs, []);
    assert [] + Pending(cs, 0) == Placed(cs);
  }

  /** The children of a row sit side by side: each one starts where the one
      two grid positions earlier ends, in the same height band. */
  lemma RowsContiguous(cs: seq<Child>, border: nat, area: Rect, k: nat)
    requires k + 2 < |Placed(cs)|
    ensures var p := SizeAllocate(cs, border, area).placements;
      && k + 2 < |p|
      && p[k + 2].area.x == p[k].area.x + p[k].area.width
      && p[k + 2].area.y == p[k].area.y
  {
    AllocatePlacements(cs, border, area);
    SlotTwoOn(Placed(cs), k, border, area);
  }

  /** The slot two ranks on is in the same row, right after slot k. */
  lemma SlotTwoOn(placed: seq<Widget>, k: nat, border: nat, area: Rect)
    requires k + 2 < |placed|
    ensures Slot(placed, k + 2, border, area).x == Slot(placed, k, border, area).x + placed[k].reqWidth
    ensures Slot(placed, k + 2, border, area).y == Slot(placed, k, border, area).y
  {
    assert placed[..k + 1] == placed[..k] + [placed[k]];
    assert placed[..k + 2] == placed[..k + 1] + [placed[k + 1]];
    RowWidthSnoc(placed[..k], placed[k], k % 2);
    RowWidthSnoc(placed[..k + 1], placed[k + 1], k % 2);
    assert (k + 2) % 2 == k % 2 && (k + 1) % 2 != k % 2;
  }

  /** Every laid-out child lies across, and inside, the width the box asked
      for, inset by the border. */
  lemma AllocationFitsRequestWidth(cs: seq<Child>, border: nat, area: Rect, k: nat)
    requires k < |Placed(cs)|
    ensures var p := SizeAllocate(cs, border, area).placements;
      var req := SizeRequest(cs, border);
      && k < |p|
      && area.x + border <= p[k].area.x
      && p[k].area.x + p[k].area.width <= area.x + req.width - border
  {
    var placed := Placed(cs);
    AllocatePlacements(cs, border, area);
    assert placed[..k + 1] == placed[..k] + [placed[k]];
    RowWidthSnoc(placed[..k], placed[k], k % 2);
    RowWidthPrefix(placed, k + 1, k % 2);
  }

  /** Every laid-out child lies inside the height the box asked for, inset
      by the border, and the two rows do not overlap. */
  lemma AllocationFitsRequestHeight(cs: seq<Child>, border: nat, area: Rect, k: nat)
    requires k < |Placed(cs)|
    ensures var p := SizeAllocate(cs, border, area).placements;
      var req := SizeRequest(cs, border);
      && k < |p|
      && area.y + border <= p[k].area.y
      && p[k].area.y + p[k].area.height <= area.y + req.height - border
      && (k % 2 == 0 && k + 1 < |p| ==> p[k].area.y + p[k].area.height + SPACING == p[k + 1].area.y)
  {
    AllocatePlacements(cs, border, area);
    var placed := Placed(cs);
    if k % 2 == 0 && k + 1 < |placed| {
      assert (k + 1) % 2 == 1;
      assert Slot(placed, k + 1, border, area).y == area.y + border + ITEM_HEIGHT + SPACING;
    }
  }
}

=== FILE: status_area.dfy ===
/** The status area panel. The plugin manager reports status plugins as they
    are loaded and unloaded; the panel shows each plugin's status-area icon
    in one of three places: the dedicated signal image, the dedicated battery
    image, or a fresh image added to the icon box. Which plugin is the signal
    or battery plugin is read from the manager's configuration file.
 */
module StatusArea {
  import opened StatusAreaBox

  datatype Option<T> = None | Some(value: T)

  /** Group and keys of the configuration file. */
  const KEYFILE_GROUP: string := "X-Status-Area"
  const KEYFILE_SIGNAL_PLUGIN: string := "X-Signal-Plugin"
  const KEYFILE_BATTERY_PLUGIN: string := "X-Battery-Plugin"

  /** A plugin object, by its identity. */
  type PluginId = nat

  /** A pixbuf, by the one thing the panel's layout reads of it. */
  datatype Icon = Icon(width: nat)

  /** A plugin as the manager hands it over: its identity, whether it is a
      status plugin item at all, the file name of the library it came from,
      and the icon its "status-area-icon" property holds right now. */
  datatype Plugin = Plugin(id: PluginId, isStatusItem: bool, dlFilename: string, icon: Option<Icon>)

  /** A parsed key file: group name to key to value. */
  type KeyFile = map<string, map<string, string>>

  /** The image a plugin's icon is shown in: one of the two dedicated images,
      or an image of its own in the icon box. */
  datatype Route = Signal | Battery | Tray(image: WidgetId)

  /** A dedicated image of the panel. */
  datatype Image = Image(icon: Option<Icon>, shown: bool)

  /** The panel's state. `connected` tells whether the manager's signals were
      connected at construction; `routes` is the image each plugin object is
      associated with; `subscribed` the plugins whose icon notifications the
      panel listens to; `held` the references the panel holds on plugins;
      `nextWidget` the next widget identity the allocator hands out. */
  datatype Panel = Panel(
    connected: bool,
    signalPlugin: Option<string>,
    batteryPlugin: Option<string>,
    routes: map<PluginId, Route>,
    subscribed: set<PluginId>,
    held: multiset<PluginId>,
    iconBox: seq<Child>,
    signalImage: Image,
    batteryImage: Image,
    nextWidget: WidgetId)

  /** The character C's `strcmp` reads at the head of a string; the end of
      the string reads as the terminator, which sorts below every character. */
  function Head(s: string): (r: int)
    ensures s == [] <==> r < 0
  {
    if s == [] then -1 else s[0] as int
  }

  /** C's `strcmp`: the difference of the first two characters that differ,
      reading the terminator at the end of the shorter string, and zero when
      no character differs. */
  function Strcmp(a: string, b: string): (r: int)
    ensures r == 0 <==> a == b
    decreases |a|
  {
    if a == [] || b == [] || a[0] != b[0] then Head(a) - Head(b)
    else Strcmp(a[1..], b[1..])
  }

  /** A configured plugin name matches a file name only when it is set and
      `strcmp` finds no difference. */
  function Matches(name: Option<string>, filename: string): (b: bool)
    ensures b <==> name == Some(filename)
  {
    name.Some? && Strcmp(name.value, filename) == 0
  }

  /** The width an image requests for an icon: the pixbuf's width, and
      nothing when there is no pixbuf. */
  function IconWidth(icon: Option<Icon>): (r: nat)
    ensures icon.None? ==> r == 0
  {
    if icon.Some? then icon.value.width else 0
  }

  /** The widgets of the icon box owned by tray routes. */
  function TrayImages(routes: map<PluginId, Route>): set<WidgetId>
  {
    set pid | pid in routes && routes[pid].Tray? :: routes[pid].image
  }

  /** No two plugins share a tray image. */
  ghost predicate TrayImagesDistinct(routes: map<PluginId, Route>)
  {
    forall a, b :: a in routes && b in routes && routes[a].Tray? && routes[a] == routes[b] ==> a == b
  }

  /** The icon box holds exactly the plugins' own images, each once, all
      with the default priority, all allocated before `nextWidget`. */
  ghost predicate BoxOwned(panel: Panel)
  {
    && DistinctIds(panel.iconBox)
    && AllDefaultPriority(panel.iconBox)
    && (forall w :: w in Ids(panel.iconBox) ==> w < panel.nextWidget)
    && Ids(panel.iconBox) == TrayImages(panel.routes)
    && TrayImagesDistinct(panel.routes)
  }

  /** The panel's invariant: on top of BoxOwned, the panel listens to exactly
      the plugins it has an image for, and holds a reference on each. */
  ghost predicate Valid(panel: Panel)
  {
    && BoxOwned(panel)
    && panel.subscribed == panel.routes.Keys
    && (forall pid :: pid in panel.routes ==> pid in panel.held)
  }

  /** The largest widget identity in the box, 0 for an empty box. */
  function MaxId(children: seq<Child>): (r: nat)
  {
    if |children| == 0 then 0
    else
      var rest := MaxId(children[1..]);
      if children[0].widget.id > rest then children[0].widget.id else rest
  }

  lemma {:induction false} MaxIdAbove(children: seq<Child>, i: nat)
    requires i < |children|
    ensures children[i].widget.id <= MaxId(children)
    decreases |children|
  {
    if i > 0 {
      assert children[i] == children[1..][i - 1];
      MaxIdAbove(children[1..], i - 1);
    }
  }

  /** The identity a new image receives: one no widget of the box has. With
      the invariant it is `nextWidget`. */
  function AllocId(panel: Panel): (w: WidgetId)
    ensures w !in Ids(panel.iconBox)
    ensures w >= panel.nextWidget
    ensures BoxOwned(panel) ==> w == panel.nextWidget
  {
    if panel.nextWidget !in Ids(panel.iconBox) then panel.nextWidget
    else
      var w := 1 + MaxId(panel.iconBox) + panel.nextWidget;
      assert w !in Ids(panel.iconBox) by {
        forall i | 0 <= i < |panel.iconBox|
          ensures panel.iconBox[i].widget.id != w
        {
          MaxIdAbove(panel.iconBox, i);
        }
      }
      w
  }

  /** Destroying an image: a widget whose parent is the icon box is removed
      from it; any other widget has nothing to leave. */
  function DestroyImage(children: seq<Child>, w: WidgetId): (r: seq<Child>)
    ensures Ids(r) <= Ids(children)
    ensures DistinctIds(children) ==> DistinctIds(r) && Ids(r) == Ids(children) - {w}
    ensures AllDefaultPriority(children) ==> AllDefaultPriority(r)
  {
    if w !in Ids(children) then children
    else
      RemoveKeepsOthers(children, w);
      var r := Remove(children, w).children;
      assert Ids(r) <= Ids(children) by {
        forall c | c in r
          ensures c in children
        {
          assert c in multiset(r);
        }
      }
      r
  }

  /** Clearing a plugin's image association. A tray image was attached with
      a destroy notification, so clearing it destroys the image; the two
      dedicated images are only forgotten. */
  function Detach(panel: Panel, pid: PluginId): (r: Panel)
    ensures pid !in r.routes
    ensures r.routes == panel.routes - {pid}
    ensures Ids(r.iconBox) <= Ids(panel.iconBox)
    ensures r.(routes := panel.routes, iconBox := panel.iconBox) == panel
    ensures pid in panel.routes && panel.routes[pid].Tray? ==>
      r.iconBox == DestroyImage(panel.iconBox, panel.routes[pid].image)
    ensures !(pid in panel.routes && panel.routes[pid].Tray?) ==> r.iconBox == panel.iconBox
  {
    if pid in panel.routes && panel.routes[pid].Tray? then
      panel.(routes := panel.routes - {pid}, iconBox := DestroyImage(panel.iconBox, panel.routes[pid].image))
    else
      panel.(routes := panel.routes - {pid})
  }

  /** Showing a plugin's icon in its tray image: the image takes the pixbuf,
      which sets its requested width, and is shown exactly when there is one. */
  function ShowIcon(children: seq<Child>, w: WidgetId, icon: Option<Icon>): (r: seq<Child>)
    ensures |r| == |children|
    ensures forall i :: 0 <= i < |r| ==>
      && r[i].priority == children[i].priority
      && r[i].widget.id == children[i].widget.id
      && r[i].widget.childVisible == children[i].widget.childVisible
    ensures forall i :: 0 <= i < |r| && children[i].widget.id != w ==> r[i] == children[i]
    ensures forall i :: 0 <= i < |r| && children[i].widget.id == w ==>
      r[i].widget.visible == icon.Some? && r[i].widget.reqWidth == IconWidth(icon)
  {
    seq(|children|, i requires 0 <= i < |children| =>
      if children[i].widget.id == w then
        Child(children[i].widget.(visible := icon.Some?, reqWidth := IconWidth(icon)), children[i].priority)
      else children[i])
  }

  /** The icon-changed handler: the image associated with the plugin takes
      the plugin's current icon and is shown exactly when the icon is set. A
      plugin without an image has nothing to update. */
  function IconChanged(panel: Panel, p: Plugin): (r: Panel)
    ensures r.(signalImage := panel.signalImage, batteryImage := panel.batteryImage, iconBox := panel.iconBox) == panel
    ensures |r.iconBox| == |panel.iconBox|
  {
    if p.id !in panel.routes then panel
    else
      match panel.routes[p.id]
      case Signal => panel.(signalImage := Image(p.icon, p.icon.Some?))
      case Battery => panel.(batteryImage := Image(p.icon, p.icon.Some?))
      case Tray(w) => panel.(iconBox := ShowIcon(panel.iconBox, w, p.icon))
  }

  /** Associating a plugin with an image, after clearing any image it had. */
  function Attach(panel: Panel, pid: PluginId, route: Route): (r: Panel)
    ensures r.routes == (panel.routes - {pid})[pid := route]
    ensures Ids(r.iconBox) <= Ids(panel.iconBox)
    ensures r.(routes := panel.routes, iconBox := panel.iconBox) == panel
    ensures pid in panel.routes && panel.routes[pid].Tray? ==>
      r.iconBox == DestroyImage(panel.iconBox, panel.routes[pid].image)
    ensures !(pid in panel.routes && panel.routes[pid].Tray?) ==> r.iconBox == panel.iconBox
  {
    var d := Detach(panel, pid);
    d.(routes := d.routes[pid := route])
  }

  /** Choosing a status plugin's image. Its library file name is compared
      with the signal plugin's name first and the battery plugin's second; a
      plugin matching neither gets a new, hidden image of its own that is
      added to the icon box. */
  function AttachNew(panel: Panel, p: Plugin): (r: Panel)
    ensures p.id in r.routes
    ensures r.routes - {p.id} == panel.routes - {p.id}
    ensures r.(routes := panel.routes, iconBox := panel.iconBox, nextWidget := panel.nextWidget) == panel
  {
    if Matches(panel.signalPlugin, p.dlFilename) then
      Attach(panel, p.id, Signal)
    else if Matches(panel.batteryPlugin, p.dlFilename) then
      Attach(panel, p.id, Battery)
    else
      var w := AllocId(panel);
      var d := Attach(panel, p.id, Tray(w));
      d.(iconBox := Add(d.iconBox, Widget(w, false, true, 0)), nextWidget := w + 1)
  }

  /** The plugin-added handler. Objects that are not status plugin items are
      ignored. A status plugin is referenced and given its image; the panel
      then listens to the plugin's icon and shows its current one. */
  function PluginAdded(panel: Panel, p: Plugin): (r: Panel)
    ensures !p.isStatusItem ==> r == panel
    ensures p.isStatusItem ==>
      && p.id in r.routes && p.id in r.subscribed
      && r.routes - {p.id} == panel.routes - {p.id}
      && r.subscribed == panel.subscribed + {p.id}
      && r.held == panel.held + multiset{p.id}
      && r.signalPlugin == panel.signalPlugin && r.batteryPlugin == panel.batteryPlugin
      && r.connected == panel.connected
  {
    if !p.isStatusItem then panel
    else
      var attached := AttachNew(panel.(held := panel.held + multiset{p.id}), p);
      IconChanged(attached.(subscribed := attached.subscribed + {p.id}), p)
  }

  /** The plugin-removed handler. Objects that are not status plugin items
      are ignored. For a status plugin the panel stops listening to its icon,
      clears its image association and drops the reference taken when it was
      added. */
  function PluginRemoved(panel: Panel, p: Plugin): (r: Panel)
    ensures !p.isStatusItem ==> r == panel
    ensures p.isStatusItem ==>
      && p.id !in r.routes && p.id !in r.subscribed
      && r.routes == panel.routes - {p.id}
      && r.subscribed == panel.subscribed - {p.id}
      && r.held == panel.held - multiset{p.id}
      && r.(routes := panel.routes, subscribed := panel.subscribed, held := panel.held, iconBox := panel.iconBox) == panel
    ensures p.isStatusItem && p.id in panel.routes && panel.routes[p.id].Tray? ==>
      r.iconBox == DestroyImage(panel.iconBox, panel.routes[p.id].image)
    ensures p.isStatusItem && !(p.id in panel.routes && panel.routes[p.id].Tray?) ==>
      r.iconBox == panel.iconBox
  {
    if !p.isStatusItem then panel
    else
      var d := Detach(panel.(subscribed := panel.subscribed - {p.id}), p.id);
      d.(held := d.held - multiset{p.id})
  }

  /** A string value of the key file; missing when either the group or the
      key is missing. */
  function GetString(kf: KeyFile, group: string, key: string): (r: Option<string>)
    ensures r.Some? <==> group in kf && key in kf[group]
    ensures r.Some? ==> r.value == kf[group][key]
  {
    if group in kf && key in kf[group] then Some(kf[group][key]) else None
  }

  /** The configuration-loaded handler: both plugin names are replaced by the
      configuration's values, whatever they were before. Images already
      associated keep their routes. */
  function ConfigurationLoaded(panel: Panel, kf: KeyFile): (r: Panel)
    ensures r.signalPlugin == GetString(kf, KEYFILE_GROUP, KEYFILE_SIGNAL_PLUGIN)
    ensures r.batteryPlugin == GetString(kf, KEYFILE_GROUP, KEYFILE_BATTERY_PLUGIN)
    ensures r.(signalPlugin := panel.signalPlugin, batteryPlugin := panel.batteryPlugin) == panel
  {
    panel.(signalPlugin := GetString(kf, KEYFILE_GROUP, KEYFILE_SIGNAL_PLUGIN),
           batteryPlugin := GetString(kf, KEYFILE_GROUP, KEYFILE_BATTERY_PLUGIN))
  }

  /** Constructing the panel. The dedicated images start shown and empty,
      the icon box empty. Only a panel given a plugin manager connects to
      its signals; without one it warns and stays unconnected. */
  function Construct(hasManager: bool): (r: Panel)
    ensures Valid(r)
    ensures r.connected == hasManager
    ensures r.signalPlugin.None? && r.batteryPlugin.None?
    ensures r.routes == map[] && r.subscribed == {} && r.held == multiset{} && r.iconBox == []
    ensures r.signalImage.icon.None? && r.signalImage.shown
    ensures r.batteryImage.icon.None? && r.batteryImage.shown
  {
    Panel(hasManager, None, None, map[], {}, multiset{}, [], Image(None, true), Image(None, true), 0)
  }

  /** What the panel can be told. */
  datatype Event =
    | PluginAddedEvent(plugin: Plugin)
    | PluginRemovedEvent(plugin: Plugin)
    | ConfigurationLoadedEvent(keyFile: KeyFile)
    | IconNotify(plugin: Plugin)

  /** Delivering an event through the signal connections: the manager's
      three signals reach only a connected panel, and a plugin's icon
      notification only a panel listening to that plugin. */
  function Deliver(panel: Panel, e: Event): (r: Panel)
    ensures !panel.connected ==> r == panel
    ensures r.connected == panel.connected
  {
    if !panel.connected then panel
    else
      match e
      case PluginAddedEvent(p) => PluginAdded(panel, p)
      case PluginRemovedEvent(p) => PluginRemoved(panel, p)
      case ConfigurationLoadedEvent(kf) => ConfigurationLoaded(panel, kf)
      case IconNotify(p) => if p.id in panel.subscribed then IconChanged(panel, p) else panel
  }

  function Run(panel: Panel, events: seq<Event>): (r: Panel)
    decreases |events|
  {
    if |events| == 0 then panel else Run(Deliver(panel, events[0]), events[1..])
  }

  /** Whether the image associated with a plugin is shown. */
  function ImageShown(panel: Panel, pid: PluginId): (r: bool)
    requires pid in panel.routes
    requires panel.routes[pid].Tray? ==> panel.routes[pid].image in Ids(panel.iconBox)
  {
    match panel.routes[pid]
    case Signal => panel.signalImage.shown
    case Battery => panel.batteryImage.shown
    case Tray(w) => panel.iconBox[IndexOf(panel.iconBox, w)].widget.visible
  }

  /** Setting an icon changes no widget's identity or priority, so the box's
      invariants survive it. */
  lemma ShowIconKeepsIds(children: seq<Child>, w: WidgetId, icon: Option<Icon>)
    ensures Ids(ShowIcon(children, w, icon)) == Ids(children)
    ensures DistinctIds(children) ==> DistinctIds(ShowIcon(children, w, icon))
    ensures AllDefaultPriority(children) ==> AllDefaultPriority(ShowIcon(children, w, icon))
  {
    var r := ShowIcon(children, w, icon);
    forall id | id in Ids(children)
      ensures id in Ids(r)
    {
      var i :| 0 <= i < |children| && children[i].widget.id == id;
      assert r[i] in r;
    }
    forall id | id in Ids(r)
      ensures id in Ids(children)
    {
      var i :| 0 <= i < |r| && r[i].widget.id == id;
      assert children[i] in children;
    }
  }

  /** The image found for a widget is the one whose icon was set. */
  lemma ShowIconFound(children: seq<Child>, w: WidgetId, icon: Option<Icon>)
    requires w in Ids(children)
    ensures w in Ids(ShowIcon(children, w, icon))
    ensures var r := ShowIcon(children, w, icon);
      var k := IndexOf(r, w);
      k == IndexOf(children, w) && r[k].widget.visible == icon.Some? && r[k].widget.reqWidth == IconWidth(icon)
  {
    ShowIconKeepsIds(children, w, icon);
    var r := ShowIcon(children, w, icon);
    var k, k' := IndexOf(children, w), IndexOf(r, w);
    assert r[k].widget.id == w;
    assert children[k'].widget.id == w;
  }

  /** After the icon-changed handler the plugin's image shows the plugin's
      current icon, and is shown exactly when the plugin has one. Every other
      image keeps its state. */
  lemma IconChangedShows(panel: Panel, p: Plugin)
    requires p.id in panel.routes
    requires panel.routes[p.id].Tray? ==> panel.routes[p.id].image in Ids(panel.iconBox)
    ensures var r := IconChanged(panel, p);
      && (r.routes[p.id].Tray? ==> r.routes[p.id].image in Ids(r.iconBox))
      && ImageShown(r, p.id) == p.icon.Some?
    ensures var r := IconChanged(panel, p);
      panel.routes[p.id] == Signal ==>
        r.signalImage.icon == p.icon && r.batteryImage == panel.batteryImage && r.iconBox == panel.iconBox
    ensures var r := IconChanged(panel, p);
      panel.routes[p.id] == Battery ==>
        r.batteryImage.icon == p.icon && r.signalImage == panel.signalImage && r.iconBox == panel.iconBox
    ensures var r := IconChanged(panel, p);
      panel.routes[p.id].Tray? ==>
        && r.signalImage == panel.signalImage && r.batteryImage == panel.batteryImage
        && r.iconBox[IndexOf(r.iconBox, panel.routes[p.id].image)].widget.reqWidth == IconWidth(p.icon)
        && (forall i :: 0 <= i < |r.iconBox| && r.iconBox[i].widget.id != panel.routes[p.id].image ==>
              r.iconBox[i] == panel.iconBox[i])
  {
    if panel.routes[p.id].Tray? {
      ShowIconFound(panel.iconBox, panel.routes[p.id].image, p.icon);
    }
  }

  /** Running the handler twice in a row does what running it once does, so
      a plugin whose notification is connected more than once behaves as if
      it were connected once. */
  lemma IconChangedIdempotent(panel: Panel, p: Plugin)
    ensures IconChanged(IconChanged(panel, p), p) == IconChanged(panel, p)
  {
    if p.id in panel.routes && panel.routes[p.id].Tray? {
      var w := panel.routes[p.id].image;
      var once := ShowIcon(panel.iconBox, w, p.icon);
      assert ShowIcon(once, w, p.icon) == once;
    }
  }

  /** Where a status plugin's image is chosen. A set signal name equal to
      the plugin's file name wins, whatever the battery name is; a set
      battery name comes next; an unset name matches nothing. A plugin
      matching neither name gets an image not yet in the box, put at the
      front of the icon box; a plugin routed to a dedicated image leaves the
      icon box alone. */
  lemma AttachNewRoutes(panel: Panel, p: Plugin)
    ensures var r := AttachNew(panel, p);
      Matches(panel.signalPlugin, p.dlFilename) ==> r.routes[p.id] == Signal
    ensures var r := AttachNew(panel, p);
      !Matches(panel.signalPlugin, p.dlFilename) && Matches(panel.batteryPlugin, p.dlFilename) ==>
        r.routes[p.id] == Battery
    ensures var r := AttachNew(panel, p);
      r.routes[p.id].Tray? <==>
        !Matches(panel.signalPlugin, p.dlFilename) && !Matches(panel.batteryPlugin, p.dlFilename)
    ensures var r := AttachNew(panel, p);
      r.routes[p.id].Tray? ==> r.routes[p.id].image !in Ids(panel.iconBox)
    ensures var r := AttachNew(panel, p);
      !r.routes[p.id].Tray? && p.id !in panel.routes ==> r.iconBox == panel.iconBox
    ensures var r := AttachNew(panel, p);
      r.routes[p.id].Tray? && p.id !in panel.routes && AllDefaultPriority(panel.iconBox) ==>
        r.iconBox == [Child(Widget(r.routes[p.id].image, false, true, 0), G_MAXUINT)] + panel.iconBox
  {
  }

  /** Setting the icon of the front image when that image is held once. */
  lemma ShowIconFront(c: Child, rest: seq<Child>, icon: Option<Icon>)
    requires c.widget.id !in Ids(rest)
    ensures ShowIcon([c] + rest, c.widget.id, icon) ==
      [Child(c.widget.(visible := icon.Some?, reqWidth := IconWidth(icon)), c.priority)] + rest
  {
    var r := ShowIcon([c] + rest, c.widget.id, icon);
    forall i | 0 < i < |r|
      ensures r[i] == rest[i - 1]
    {
      assert ([c] + rest)[i] == rest[i - 1];
      assert rest[i - 1] in rest;
    }
  }

  /** The routing of the plugin-added handler, with the icon shown: see
      AttachNewRoutes. A new tray image shows the plugin's icon from the
      start. */
  lemma PluginAddedRoutes(panel: Panel, p: Plugin)
    requires p.isStatusItem
    ensures var r := PluginAdded(panel, p);
      Matches(panel.signalPlugin, p.dlFilename) ==> r.routes[p.id] == Signal
    ensures var r := PluginAdded(panel, p);
      !Matches(panel.signalPlugin, p.dlFilename) && Matches(panel.batteryPlugin, p.dlFilename) ==>
        r.routes[p.id] == Battery
    ensures var r := PluginAdded(panel, p);
      panel.signalPlugin.None? && panel.batteryPlugin.None? ==> r.routes[p.id].Tray?
    ensures var r := PluginAdded(panel, p);
      r.routes[p.id].Tray? <==>
        !Matches(panel.signalPlugin, p.dlFilename) && !Matches(panel.batteryPlugin, p.dlFilename)
    ensures var r := PluginAdded(panel, p);
      r.routes[p.id].Tray? ==> r.routes[p.id].image !in Ids(panel.iconBox)
    ensures var r := PluginAdded(panel, p);
      !r.routes[p.id].Tray? && p.id !in panel.routes ==> r.iconBox == panel.iconBox
    ensures var r := PluginAdded(panel, p);
      r.routes[p.id].Tray? && p.id !in panel.routes && AllDefaultPriority(panel.iconBox) ==>
        r.iconBox == [Child(Widget(r.routes[p.id].image, p.icon.Some?, true, IconWidth(p.icon)), G_MAXUINT)] + panel.iconBox
  {
    var referenced := panel.(held := panel.held + multiset{p.id});
    AttachNewRoutes(referenced, p);
    var attached := AttachNew(referenced, p);
    var listening := attached.(subscribed := attached.subscribed + {p.id});
    if attached.routes[p.id].Tray? && p.id !in panel.routes && AllDefaultPriority(panel.iconBox) {
      var c := Child(Widget(attached.routes[p.id].image, false, true, 0), G_MAXUINT);
      ShowIconFront(c, panel.iconBox, p.icon);
    }
  }

  /** The plugin-added handler touches no dedicated image but the one the
      plugin is routed to. */
  lemma PluginAddedKeepsOtherImages(panel: Panel, p: Plugin)
    ensures var r := PluginAdded(panel, p);
      !Matches(panel.signalPlugin, p.dlFilename) ==> r.signalImage == panel.signalImage
    ensures var r := PluginAdded(panel, p);
      Matches(panel.signalPlugin, p.dlFilename) || !Matches(panel.batteryPlugin, p.dlFilename) ==>
        r.batteryImage == panel.batteryImage
  {
    if p.isStatusItem {
      var referenced := panel.(held := panel.held + multiset{p.id});
      AttachNewRoutes(referenced, p);
      var attached := AttachNew(referenced, p);
      IconChangedShows(attached.(subscribed := attached.subscribed + {p.id}), p);
    }
  }

  /** After the plugin-added handler the plugin's image is shown exactly when
      the plugin has an icon. */
  lemma PluginAddedShows(panel: Panel, p: Plugin)
    requires p.isStatusItem
    ensures var r := PluginAdded(panel, p);
      && p.id in r.routes
      && (r.routes[p.id].Tray? ==> r.routes[p.id].image in Ids(r.iconBox))
      && ImageShown(r, p.id) == p.icon.Some?
  {
    var attached := AttachNew(panel.(held := panel.held + multiset{p.id}), p);
    IconChangedShows(attached.(subscribed := attached.subscribed + {p.id}), p);
  }

  /** Taking a plugin's route out of the map takes its tray image, and only
      that, out of the tray images. */
  lemma TrayImagesRemove(routes: map<PluginId, Route>, pid: PluginId)
    requires TrayImagesDistinct(routes)
    ensures TrayImagesDistinct(routes - {pid})
    ensures TrayImages(routes - {pid}) ==
      TrayImages(routes) - (if pid in routes && routes[pid].Tray? then {routes[pid].image} else {})
  {
    var smaller := routes - {pid};
    forall w | w in TrayImages(routes) && !(pid in routes && routes[pid] == Tray(w))
      ensures w in TrayImages(smaller)
    {
      var q :| q in routes && routes[q].Tray? && routes[q].image == w;
      assert q != pid;
      assert q in smaller && smaller[q] == routes[q];
    }
  }

  /** Giving a plugin without a route a route adds its tray image, if any. */
  lemma TrayImagesAdd(routes: map<PluginId, Route>, pid: PluginId, route: Route)
    requires pid !in routes
    requires route.Tray? ==> route.image !in TrayImages(routes)
    requires TrayImagesDistinct(routes)
    ensures TrayImagesDistinct(routes[pid := route])
    ensures TrayImages(routes[pid := route]) ==
      TrayImages(routes) + (if route.Tray? then {route.image} else {})
  {
    var larger := routes[pid := route];
    forall w | w in TrayImages(routes)
      ensures w in TrayImages(larger)
    {
      var q :| q in routes && routes[q].Tray? && routes[q].image == w;
      assert q in larger && larger[q] == routes[q];
    }
    if route.Tray? {
      assert larger[pid] == route;
    }
    forall q | q in routes && routes[q].Tray?
      ensures routes[q] != route
    {
      assert routes[q].image in TrayImages(routes);
    }
  }

  /** Clearing an association keeps the icon box owned by the routes. */
  lemma DetachKeepsOwned(panel: Panel, pid: PluginId)
    requires BoxOwned(panel)
    ensures BoxOwned(Detach(panel, pid))
  {
    TrayImagesRemove(panel.routes, pid);
  }

  /** The icon-changed handler keeps the invariant. */
  lemma IconChangedKeepsValid(panel: Panel, p: Plugin)
    requires Valid(panel)
    ensures Valid(IconChanged(panel, p))
  {
    if p.id in panel.routes && panel.routes[p.id].Tray? {
      ShowIconKeepsIds(panel.iconBox, panel.routes[p.id].image, p.icon);
    }
  }

  /** Giving a plugin without a route a dedicated image keeps the icon box
      owned by the routes. */
  lemma AttachDedicatedKeepsOwned(panel: Panel, pid: PluginId, route: Route)
    requires BoxOwned(panel) && pid !in panel.routes && !route.Tray?
    ensures BoxOwned(panel.(routes := panel.routes[pid := route]))
  {
    TrayImagesAdd(panel.routes, pid, route);
  }

  /** Giving a plugin without a route a new image, added to the icon box,
      keeps the icon box owned by the routes. */
  lemma AttachTrayKeepsOwned(panel: Panel, pid: PluginId, w: WidgetId)
    requires BoxOwned(panel) && pid !in panel.routes
    requires w !in Ids(panel.iconBox) && w >= panel.nextWidget
    ensures BoxOwned(panel.(routes := panel.routes[pid := Tray(w)],
                            iconBox := Add(panel.iconBox, Widget(w, false, true, 0)),
                            nextWidget := w + 1))
  {
    TrayImagesAdd(panel.routes, pid, Tray(w));
  }

  /** Choosing an image keeps the icon box owned by the routes. */
  lemma AttachNewKeepsOwned(panel: Panel, p: Plugin)
    requires BoxOwned(panel)
    ensures BoxOwned(AttachNew(panel, p))
  {
    var d := Detach(panel, p.id);
    DetachKeepsOwned(panel, p.id);
    if Matches(panel.signalPlugin, p.dlFilename) {
      AttachDedicatedKeepsOwned(d, p.id, Signal);
    } else if Matches(panel.batteryPlugin, p.dlFilename) {
      AttachDedicatedKeepsOwned(d, p.id, Battery);
    } else {
      AttachTrayKeepsOwned(d, p.id, AllocId(panel));
    }
  }

  /** The plugin-added handler keeps the invariant. */
  lemma PluginAddedKeepsValid(panel: Panel, p: Plugin)
    requires Valid(panel)
    ensures Valid(PluginAdded(panel, p))
  {
    if p.isStatusItem {
      var referenced := panel.(held := panel.held + multiset{p.id});
      AttachNewKeepsOwned(referenced, p);
      var attached := AttachNew(referenced, p);
      var listening := attached.(subscribed := attached.subscribed + {p.id});
      assert Valid(listening);
      IconChangedKeepsValid(listening, p);
    }
  }

  /** The plugin-removed handler keeps the invariant. */
  lemma PluginRemovedKeepsValid(panel: Panel, p: Plugin)
    requires Valid(panel)
    ensures Valid(PluginRemoved(panel, p))
  {
    if p.isStatusItem {
      DetachKeepsOwned(panel.(subscribed := panel.subscribed - {p.id}), p.id);
      var r := PluginRemoved(panel, p);
      forall pid | pid in r.routes
        ensures pid in r.held
      {
        assert pid != p.id && pid in panel.held;
        assert r.held[pid] == panel.held[pid];
      }
    }
  }

  /** Every event keeps the invariant, so every panel the program can reach
      satisfies it. */
  lemma {:induction false} RunKeepsValid(panel: Panel, events: seq<Event>)
    requires Valid(panel)
    ensures Valid(Run(panel, events))
    decreases |events|
  {
    if |events| > 0 {
      var next := Deliver(panel, events[0]);
      if panel.connected {
        match events[0]
        case PluginAddedEvent(p) => PluginAddedKeepsValid(panel, p);
        case PluginRemovedEvent(p) => PluginRemovedKeepsValid(panel, p);
        case ConfigurationLoadedEvent(kf) =>
        case IconNotify(p) => IconChangedKeepsValid(panel, p);
      }
      RunKeepsValid(next, events[1..]);
    }
  }

  /** Removing a plugin from a panel that differs from `before` only by the
      plugin's image, subscription and reference gives `before` back, up to
      the dedicated images and the allocator. */
  lemma PluginRemovedRestores(before: Panel, added: Panel, p: Plugin)
    requires p.isStatusItem && p.id !in before.routes && p.id !in before.subscribed
    requires p.id in added.routes
    requires added.routes - {p.id} == before.routes
    requires added.subscribed == before.subscribed + {p.id}
    requires added.held == before.held + multiset{p.id}
    requires added.routes[p.id].Tray? ==> DestroyImage(added.iconBox, added.routes[p.id].image) == before.iconBox
    requires !added.routes[p.id].Tray? ==> added.iconBox == before.iconBox
    requires added.connected == before.connected
    requires added.signalPlugin == before.signalPlugin && added.batteryPlugin == before.batteryPlugin
    ensures PluginRemoved(added, p) ==
      before.(signalImage := added.signalImage, batteryImage := added.batteryImage, nextWidget := added.nextWidget)
  {
    var r := PluginRemoved(added, p);
    assert r.subscribed == before.subscribed;
    assert r.held == before.held;
  }

  /** Destroying the image the plugin-added handler associated gives the
      icon box back as it was. */
  lemma PluginAddedUndoneInBox(panel: Panel, p: Plugin)
    requires Valid(panel)
    requires p.isStatusItem && p.id !in panel.routes
    ensures var added := PluginAdded(panel, p);
      && (added.routes[p.id].Tray? ==> DestroyImage(added.iconBox, added.routes[p.id].image) == panel.iconBox)
      && (!added.routes[p.id].Tray? ==> added.iconBox == panel.iconBox)
  {
    var added := PluginAdded(panel, p);
    PluginAddedRoutes(panel, p);
    if added.routes[p.id].Tray? {
      var w := added.routes[p.id].image;
      var c := Child(Widget(w, p.icon.Some?, true, IconWidth(p.icon)), G_MAXUINT);
      assert added.iconBox == [] + [c] + panel.iconBox;
      RemoveAfterPrefix([], c, panel.iconBox);
    }
  }

  /** Removing a status plugin undoes adding it: the panel no longer listens
      to it, has no image for it and holds no reference taken for it, and a
      tray image made for it is gone from the icon box again. Only the
      dedicated image the plugin was routed to keeps the icon it was last
      given, and the widget allocator has moved on. */
  lemma PluginRemovedUndoesAdded(panel: Panel, p: Plugin)
    requires Valid(panel)
    requires p.isStatusItem && p.id !in panel.routes
    ensures var r := PluginRemoved(PluginAdded(panel, p), p);
      r == panel.(signalImage := r.signalImage, batteryImage := r.batteryImage, nextWidget := r.nextWidget)
    ensures var r := PluginRemoved(PluginAdded(panel, p), p);
      && (!Matches(panel.signalPlugin, p.dlFilename) ==> r.signalImage == panel.signalImage)
      && (Matches(panel.signalPlugin, p.dlFilename) || !Matches(panel.batteryPlugin, p.dlFilename) ==>
            r.batteryImage == panel.batteryImage)
  {
    var added := PluginAdded(panel, p);
    PluginAddedUndoneInBox(panel, p);
    PluginRemovedRestores(panel, added, p);
    PluginAddedKeepsOtherImages(panel, p);
  }

  /** In a reachable panel, an icon notification the panel listens to
      leaves the plugin's image shown exactly when the plugin has an icon. */
  lemma IconNotifyShows(panel: Panel, p: Plugin)
    requires Valid(panel) && panel.connected && p.id in panel.subscribed
    ensures var r := Deliver(panel, IconNotify(p));
      && p.id in r.routes
      && (r.routes[p.id].Tray? ==> r.routes[p.id].image in Ids(r.iconBox))
      && ImageShown(r, p.id) == p.icon.Some?
  {
    if panel.routes[p.id].Tray? {
      assert panel.routes[p.id].image in TrayImages(panel.routes);
    }
    IconChangedShows(panel, p);
  }

  /** A configuration naming a plugin's library as the signal plugin sends
      that plugin's icon to the signal image when it is added later, and a
      configuration naming neither plugin sends every status plugin's icon
      to a tray image of its own. */
  lemma ConfigurationDecidesRoute(panel: Panel, kf: KeyFile, p: Plugin)
    requires p.isStatusItem
    ensures var r := PluginAdded(ConfigurationLoaded(panel, kf), p);
      && (GetString(kf, KEYFILE_GROUP, KEYFILE_SIGNAL_PLUGIN) == Some(p.dlFilename) ==> r.routes[p.id] == Signal)
      && (KEYFILE_GROUP !in kf ==> r.routes[p.id].Tray?)
  {
    PluginAddedRoutes(ConfigurationLoaded(panel, kf), p);
  }

  /** A panel constructed without a plugin manager is connected to nothing,
      so no sequence of events changes it. */
  lemma {:induction false} UnconnectedStaysPut(panel: Panel, events: seq<Event>)
    requires !panel.connected
    ensures Run(panel, events) == panel
    decreases |events|
  {
    if |events| > 0 {
      UnconnectedStaysPut(Deliver(panel, events[0]), events[1..]);
    }
  }

  /** The manager's signals are connected exactly when a manager is given; a
      panel built without one stays as it was built, whatever is delivered. */
  lemma {:induction false} ConstructConnects(events: seq<Event>)
    ensures Construct(true).connected
    ensures Run(Construct(false), events) == Construct(false)
  {
    UnconnectedStaysPut(Construct(false), events);
  }
}
